=== FILE: README.md ===
# AirSense core, modelled in Dafny

AirSense is an air-quality dashboard. Its server collects readings from an
air-quality provider every fifteen minutes. It forecasts AQI and temperature
from the stored readings, answers a few HTTP endpoints, and relays IoT device
readings to browsers over a WebSocket. The browser shows AQI bands, health
advice and pollutant gauges.

This project models that core as pure Dafny functions over immutable data:

- `numerics.dfy` (`Numerics`): `Math.round`, clamping, and the `reduce`-style sum, mean and population variance the forecasters share.
- `arima_predictor.dfy` (`ArimaPredictor`): the AR(p) fit (`fitARModel`) and the mean-reverting forecast (`arimaForecast`).
- `prediction_service.dfy` (`PredictionService`): Holt's linear smoothing and the hourly AQI, hourly temperature and daily AQI forecasts.
- `readings.dfy` (`Readings`): the provider reading, the storage insert row built from it, and the stored reading.
- `data_collector.dfy` (`DataCollector`): the collector service as a state record. `start`, `stop`, a timer tick, the per-city collection loop and `collectForCity` are transitions on it.
- `live_stream.dfy` (`LiveStream`): the WebSocket client registry and its `connection`, `message`, `close` and `error` handlers, one atomic step per event.
- `route_rules.dfy` (`RouteRules`): the request rules of the HTTP endpoints. These cover default locations, timeframes and the 72-hour cap, city validation, the cached fallback, export shaping and the chat context.
- `aqi_card.dfy`, `map_view.dfy`, `health_advisory.dfy` and `pollutant_card.dfy`: the client's classifiers. The AQI bands are also stated against an independent table of upper bounds. The lemmas compare the three components that classify AQI.

These become parameters, so the model is deterministic:

- storage: a function from query to result or thrown error, and an append-only sequence for the collector;
- the provider;
- `Math.sqrt`: a function constrained only by `sqrt(0) = 0` and non-negativity;
- the clock: `now`, in milliseconds;
- a socket's `readyState`.

A thrown error is an `Err` or `Fail` value, and an HTTP status is a
constructor of the endpoint's response type.

## Model

| member | source | states |
|---|---|---|
| `Numerics.Round` | server/services/arimaPredictor.ts:97 | `Math.round(x)` is the integer `n` with `x - 1/2 < n <= x + 1/2` |
| `Numerics.Clamp` | server/services/predictionService.ts:69 | `Math.max(lo, Math.min(hi, x))` lies in `[lo, hi]`: it is `x` inside the range and the nearer end outside it |
| `Numerics.VarianceNonNegative` | server/services/predictionService.ts:45-46 | the residual variance (squared deviations over `max(1, n)`) is never negative |
| `Numerics.VarianceOfConstant` | server/services/arimaPredictor.ts:65-66 | a constant residual sequence has variance zero |
| `Numerics.SumOfConstant` | server/services/arimaPredictor.ts:28 | the `reduce` sum of `n` copies of `c` is `n * c` |
| `ArimaPredictor.ComputeAutocorrelations` | server/services/arimaPredictor.ts:37-46 | the nested loop yields `p + 1` autocorrelations; the lag-k entry averages exactly the `n - k` products `c[i] * c[i-k]`, or is 0 when there are none |
| `ArimaPredictor.Coefficients` | server/services/arimaPredictor.ts:49-53 | there is one coefficient per lag order |
| `ArimaPredictor.Residuals` | server/services/arimaPredictor.ts:56-63 | there is one residual for each point after the first `p` |
| `ArimaPredictor.FitARModel` | server/services/arimaPredictor.ts:12-76 | fewer than `p + 2` points give zero coefficients, no residuals, spread 0 and the most recent value (or 0) as intercept. Otherwise the intercept is the mean and coefficient `i` is `0.5 * acf[i+1] / acf[0]` (+0.3 for `i = 0`), or 0 when `acf[0] = 0`. The spread is never negative |
| `ArimaPredictor.ArimaForecast` | server/services/arimaPredictor.ts:78-105 | an empty series gives `steps` zeros with confidence 0. Otherwise there are `steps` forecasts, each the rounding of its raw prediction, with one confidence in `[40, 90]` |
| `ArimaPredictor.ZeroModelProjectsConstant` | server/services/arimaPredictor.ts:88-99 | a model with all-zero coefficients predicts the same blended value at every step, whatever is appended to the working data |
| `ArimaPredictor.ShortSeriesForecastIsFlat` | server/services/arimaPredictor.ts:16-25 | a series shorter than `p + 2` forecasts `round(0.7 * latest + 0.3 * mean)` at every step, with confidence 85 |
| `ArimaPredictor.ConstantSeriesForecastsItself` | server/services/arimaPredictor.ts:12-105 | a constant whole-number series of at least `p + 2` points forecasts itself at every step, with confidence 85 |
| `PredictionService.Smooth` | server/services/predictionService.ts:19-32 | after `k` points the smoother holds exactly `k` fitted values |
| `PredictionService.HoltLinearForecast` | server/services/predictionService.ts:7-50 | an empty series gives `horizon` nulls and spread 0. Otherwise there are `horizon` entries and entry `h` is `round(level + trend * h)` of the final state. The spread is never negative |
| `PredictionService.HoltSinglePointIsFlat` | server/services/predictionService.ts:14-25 | a single reading has trend 0: every forecast is that reading rounded, and the spread is 0 |
| `PredictionService.SmoothFollowsLine` | server/services/predictionService.ts:19-32 | on data lying on a line, the level stays on the line, the trend equals the slope and each fitted value overshoots by one slope |
| `PredictionService.HoltExtendsLinearTrend` | server/services/predictionService.ts:7-50 | a series of two or more points on a line is forecast as that line continued, with spread 0 |
| `PredictionService.Horizon` | server/services/predictionService.ts:62 | the forecast length `min(hours, 72)` never exceeds 72 |
| `PredictionService.Confidence` | server/services/predictionService.ts:69 | the clamped confidence always lies in `[30, 95]` |
| `PredictionService.PredictAQIHourly` | server/services/predictionService.ts:54-78 | no readings give `[]`. Otherwise there are exactly `min(hours, 72)` points for `hours >= 0` and none for `hours <= 0`. Point `i` is stamped `now + (i+1)` hours, and all points share one confidence, `clamp(round(90 - 3 * spread), 30, 95)` |
| `PredictionService.TemperatureSeries` | server/services/predictionService.ts:105 | a reading's temperature is used when present; `aqi / 10 + 15` replaces it exactly when it is null |
| `PredictionService.PredictTemperatureHourly` | server/services/predictionService.ts:101-121 | the same shape as the AQI forecast, over the temperature series, with factor 2 in the confidence |
| `PredictionService.DaySlice` | server/services/predictionService.ts:88 | the slice of day `d` is non-empty exactly when the hourly forecast reaches past hour `24 d` |
| `PredictionService.Summarize` | server/services/predictionService.ts:90-94 | a day's min and max are attained values bounding every hour, `min <= avg <= max`, `predicted = avg`, and `avg` is the rounded mean |
| `PredictionService.Aggregate` | server/services/predictionService.ts:87-96 | there is one entry per non-empty 24-hour slice, in day order; entry `k` summarises day `d + k` |
| `PredictionService.PredictAQIWeekly` | server/services/predictionService.ts:81-98 | there are at most `max(0, min(days, 3))` entries, exactly that many when readings exist, and none without readings. Entry `k` is day `k` and summarises day `k` of the hourly forecast for `days * 24` hours: its minimum, rounded mean and maximum over that day's 24-hour slice, with `predicted = avg` |
| `PredictionService.HourlyValues` | server/services/predictionService.ts:88 | the predicted values of an hourly forecast, one per hour, in order |
| `Readings.ToInsert` | server/services/dataCollector.ts:52-65 | every provider field is copied, and an absent temperature, humidity or wind speed is stored as null |
| `DataCollector.CityRows` | server/services/dataCollector.ts:49-70 | a city contributes one row exactly when its fetch and its store succeed, and that row is the provider's reading |
| `DataCollector.CollectData` | server/services/dataCollector.ts:45-74 | every default city is fetched, in order. The store gains exactly the rows of the cities whose fetch and store succeeded, and nothing else changes |
| `DataCollector.Start` | server/services/dataCollector.ts:12-28 | when running it does nothing. Otherwise it schedules one new job, runs one collection and starts running. Reachable states stay reachable |
| `DataCollector.InitialIsValid` | server/services/dataCollector.ts:5-10 | a new service is in a reachable state: stopped, with no job and nothing collected |
| `DataCollector.Stop` | server/services/dataCollector.ts:30-43 | it always ends stopped, with no job, no interval and the job cancelled; collected data stays |
| `DataCollector.Fire` | server/services/dataCollector.ts:20-22 | a tick of a cancelled job collects nothing; a tick of the live job runs one collection |
| `DataCollector.CollectForCity` | server/services/dataCollector.ts:76-100 | success appends exactly the provider's reading. Failure appends nothing and re-throws the very error the provider or store threw |
| `DataCollector.HarvestStep` | server/services/dataCollector.ts:48-71 | one more city in the loop adds exactly that city's rows to what was collected before it |
| `DataCollector.HarvestSplits` | server/services/dataCollector.ts:48-71 | the rows of a city list are the rows of any prefix followed by the rows of the rest |
| `DataCollector.SucceedingCityIsCollected` | server/services/dataCollector.ts:48-71 | a city whose fetch and store succeed has its row collected, whatever the other cities do |
| `DataCollector.HarvestHoldsOnlySuccesses` | server/services/dataCollector.ts:48-71 | every collected row is the reading of some city whose fetch and store succeeded |
| `DataCollector.StopIsIdempotent` | server/services/dataCollector.ts:30-43 | stopping twice is stopping once |
| `DataCollector.RestartWorks` | server/services/dataCollector.ts:12-43 | start, stop, start leaves the service running on one fresh job, having collected once per real start |
| `LiveStream.Broadcast` | server/routes.ts:732-739 | each registered open client is sent one copy of the message, and no one else is. Non-open clients are skipped |
| `LiveStream.Add` | server/routes.ts:666 | `Set.add` keeps each client once |
| `LiveStream.Remove` | server/routes.ts:722 | `Set.delete` removes exactly that client and keeps the rest distinct |
| `LiveStream.EmptyHubIsValid` | server/routes.ts:662 | the registry starts empty, which holds no client twice |
| `LiveStream.Replay` | server/routes.ts:664-729 | handling any sequence of events keeps a registry valid |
| `LiveStream.ReachableHubIsValid` | server/routes.ts:662-729 | from the server's start, whatever events arrive, no client is ever registered twice |
| `LiveStream.Handle` | server/routes.ts:664-729 | a connection joins the registry and gets exactly one acknowledgement. Close and error remove the client. A message never changes the registry. The registry never holds a client twice |
| `LiveStream.IotReadingFansOut` | server/routes.ts:681-701 | an accepted device reading is stored once. Then one update goes to every registered open client, the sender included, and to nobody else |
| `LiveStream.SubscribeAnswersSenderOnly` | server/routes.ts:702-709 | a subscription is confirmed to the sender only, with no store write and no broadcast |
| `LiveStream.FailureRepliesErrorToSenderOnly` | server/routes.ts:710-717 | an unparsable frame or a failed store sends exactly one error to the sender, and nothing else happens |
| `LiveStream.UnknownTypeIsIgnored` | server/routes.ts:681-709 | a message of any other type sends nothing and stores nothing |
| `LiveStream.StoreWritesOnlyOnAcceptedReading` | server/routes.ts:677-728 | an event stores at most one reading, and stores one exactly when it is an accepted `iot_reading` |
| `RouteRules.TimeframeHours` | server/routes.ts:249 | `7d` means 168 hours and `30d` means 720; everything else, absent included, means 24 |
| `RouteRules.PredictionHours` | server/routes.ts:367-370 | the prediction endpoints ask for 72 hours for `7d` or `30d` and 24 otherwise, never more than 72 |
| `RouteRules.AqiTrend` | server/routes.ts:244-279 | the window is the last `TimeframeHours` hours. An empty window is a 503 and a storage failure a 500. Otherwise there is one AQI per reading, in order |
| `RouteRules.WeatherTrend` | server/routes.ts:330-360 | the same windowing as the AQI trend; a null weather value reads as 0 |
| `RouteRules.MlHourly` | server/routes.ts:469-506 | no stored reading gives 503 and an empty forecast gives 503. A storage failure, and only that, gives 500. Otherwise the answer is the hourly forecast of the location's recent readings for `PredictionHours` hours: exactly 24 or 72 points |
| `RouteRules.RequestedDays` | server/routes.ts:512 | an absent, unparsable or zero day count means 7; any other count is kept |
| `RouteRules.MlWeekly` | server/routes.ts:508-537 | no stored reading gives 503. A storage failure, and only that, gives 500. No recent readings or a negative count gives the 503 for an empty forecast. Otherwise the answer is the daily forecast of the recent readings: 1 to 3 days, `min(days, 3)` of them, numbered from 0 |
| `RouteRules.WeatherPredictions` | server/routes.ts:363-388 | a storage failure, and only that, is an error; no readings gives an empty list. Otherwise point `i` carries the time, temperature and confidence of hour `i` of the temperature forecast for `PredictionHours` hours, and `feelsLike` is that temperature plus 2 |
| `RouteRules.CurrentAqi` | server/routes.ts:173-226 | a live reading wins. When the provider fails, the cached reading is served only if its source is `openweather`; otherwise the answer is 503, and a storage failure is 500 |
| `RouteRules.ValidateCities` | server/routes.ts:286-292 | a list of 1 to 10 cities passes. A missing, non-array or empty field is refused as required, and more than 10 as too many |
| `RouteRules.StoreEach` | server/routes.ts:297-316 | every reading the store accepts is kept, only accepted readings are kept, and a refused one is skipped without stopping the rest |
| `RouteRules.StoreEachAppend` | server/routes.ts:297-316 | storing two lists one after the other stores the accepted rows of the first, then those of the second |
| `RouteRules.StoreEachStep` | server/routes.ts:297-316 | each iteration appends the reading's row exactly when the store accepts it, so the stored rows are the accepted readings in order, one each |
| `RouteRules.CompareCities` | server/routes.ts:282-327 | an invalid list is refused with its reason. Otherwise every fetched reading is returned and `total` is their count. The stored rows are exactly the accepted readings, in order (`StoreEach`) |
| `RouteRules.Record` | server/routes.ts:601-628 | a record carries exactly the requested groups, each copied from its reading |
| `RouteRules.ExportRecords` | server/routes.ts:596-633 | the first storage failure aborts the export. Otherwise record `k` is shaped from reading `k` of the readings found location by location, in order: one record per reading |
| `RouteRules.ShapedConcat` | server/routes.ts:596-630 | records made one per reading for two runs of readings, placed end to end, are one record per reading of the joined runs |
| `RouteRules.Export` | server/routes.ts:577-654 | a missing format, date range or type selection is a 400. With a group selected, a failing location query, and only that, gives a 500. No group selected, or no readings from any location, gives a 503. Otherwise record `k` is shaped from reading `k` of the readings found location by location, returned with their count and the format echoed |
| `RouteRules.ExportLocations` | server/routes.ts:596 | the requested locations, or `Bengaluru Central` alone when none are given |
| `RouteRules.CurrentContext` | server/routes.ts:15-46 | only an absent location means `Bengaluru`. No reading or a storage failure gives no context. Otherwise the context carries the reading's AQI, location, timestamp and six pollutant values; missing weather values read as 0 |
| `AqiCard.Classify` | client/src/components/AQICard.tsx:14-21 | the category's band contains the value, with inclusive upper bounds 50, 100, 150, 200 and 300 |
| `AqiCard.BandsPartition` | client/src/components/AQICard.tsx:14-21 | every AQI lies in exactly one of the six bands, the band of its category |
| `AqiCard.SeverityCountsBounds` | client/src/components/AQICard.tsx:14-21 | a value's severity is the number of upper bounds it exceeds |
| `AqiCard.ClassifyMonotone` | client/src/components/AQICard.tsx:14-21 | a higher AQI never gets a milder category |
| `AqiCard.Boundaries` | client/src/components/AQICard.tsx:15-20 | 50 is Good and 51 Moderate; the same holds at 100, 150 and 200; 300 is Very Unhealthy and 301 Hazardous |
| `AqiCard.CategoryStyle` | client/src/components/AQICard.tsx:15-20 | the card shows the label of the value's category |
| `AqiCard.ColorIdentifiesBand` | client/src/components/AQICard.tsx:15-20 | two values share a badge colour exactly when they share a band |
| `MapView.AqiColor` | client/src/pages/MapView.tsx:19-26 | the marker colour is the colour of the value's band |
| `MapView.AqiCategory` | client/src/pages/MapView.tsx:28-35 | the map label is the label of the value's band |
| `MapView.ColorBandIsCategoryBand` | client/src/pages/MapView.tsx:19-35 | the colour's band index equals the category's band index |
| `MapView.CategoryMatchesCard` | client/src/pages/MapView.tsx:28-35 | the map and the AQI card show the same label for every value |
| `MapView.RecommendationTier` | client/src/pages/MapView.tsx:208-227 | the tier is avoid iff `aqi > 150`, limit iff `100 < aqi <= 150`, and safe iff `aqi <= 100` |
| `MapView.Recommendations` | client/src/pages/MapView.tsx:208-227 | avoid lists four items; limit and safe list three each |
| `MapView.TierFollowsCategory` | client/src/pages/MapView.tsx:208-227 | avoid is chosen exactly for the Unhealthy, Very Unhealthy and Hazardous bands |
| `MapView.Find` | client/src/pages/MapView.tsx:48 | the lookup returns a table entry with the selected id, or nothing exactly when nothing is selected or no entry has that id |
| `MapView.FindIsUnique` | client/src/pages/MapView.tsx:8-17 | ids 1 to 8 each find exactly the one location with that id; other ids find nothing |
| `HealthAdvisory.LevelOf` | client/src/components/HealthAdvisory.tsx:13-87 | there are five levels with inclusive upper bounds 50, 100, 150 and 200; everything above 200 is Hazardous |
| `HealthAdvisory.Recommend` | client/src/components/HealthAdvisory.tsx:13-87 | the advice is that of the value's level. Hazardous lists four recommendations and every other level three |
| `HealthAdvisory.RecommendMonotone` | client/src/components/HealthAdvisory.tsx:13-87 | a higher AQI never gets milder advice |
| `HealthAdvisory.AgreesWithCardUpTo200` | client/src/components/HealthAdvisory.tsx:13-72 | up to 200 the advisory level and the card category are the same band |
| `HealthAdvisory.DivergesFromCardAbove200` | client/src/components/HealthAdvisory.tsx:74-86 | from 201 to 300 the advisory says Hazardous while the card says Very Unhealthy |
| `HealthAdvisory.SensitiveTitleDiffersFromCard` | client/src/components/HealthAdvisory.tsx:46 | the third level is titled "Unhealthy for Sensitive Groups", where the card says "Unhealthy for Sensitive" |
| `PollutantCard.StatusOf` | client/src/components/PollutantCard.tsx:15-21 | Good up to half the limit, Moderate up to the limit, Poor up to 1.5 limits, Severe beyond, with every bound inclusive |
| `PollutantCard.StatusMonotone` | client/src/components/PollutantCard.tsx:15-21 | for a fixed limit, a larger value never gets a milder status |
| `PollutantCard.Percentage` | client/src/components/PollutantCard.tsx:25 | the gauge never exceeds 100 and is 100 exactly when the value reaches the limit. Below the limit it is the value's share of the limit |
| `PollutantCard.WithinLimit` | client/src/components/PollutantCard.tsx:16-25 | within the limit the status is Good or Moderate and the gauge shows `100 * value / limit` |

## Left out

- Floating point: forecasts, means, variances and ratios are exact reals. IEEE-754 rounding, `NaN` (including `x || 0` turning `NaN` into 0) and infinities are not modelled.
- ArimaPredictor.FitARModel: the residual spread is only known to be non-negative, and 0 when the residuals are constant. `Math.sqrt` is a parameter, and no claim about forecast accuracy is made.
- PredictionService.HoltLinearForecast: the same holds for its residual spread.
- ArimaPredictor.ArimaForecast: `steps` is a natural number, so negative counts are excluded. With an empty series a negative count makes `Array(steps)` throw. With a non-empty series the loop runs zero times and the source returns an empty forecast.
- PredictionService.PredictAQIHourly: the storage query (`getAQIReadings(location, 48)`, or 72 for temperature) is the `recent` parameter, so its limit is not modelled.
- PollutantCard.StatusOf: requires a positive safe limit. With a zero or negative limit the source divides by zero or flips the bands, and the model does not describe that.
- PollutantCard.Percentage: requires a positive safe limit, for the same reason.
- The AQI classifiers take whole-number AQI values, as every stored and forecast AQI is. Fractional values between two bounds are not considered.
- DataCollector.Start: `collectData()` is not awaited in the source. The model runs the whole collection inside `start`, as one atomic step.
- Scheduling and concurrency: the 15-minute cron timing, interleaving of asynchronous handlers and `setInterval` are out. A timer tick is the explicit `Fire` step. `collectionInterval` is never set by the source and stays `None`.
- Storage, the air-quality provider, the AI and voice services and the OpenAI key test (server/routes.ts:440-466) are foreign code that is not part of this model. They appear only as parameters returning a value or an error.
- Logging: the `console.log`, `console.warn` and `console.error` calls in server/services/dataCollector.ts and server/routes.ts have no effect on any result and are left out.
- RouteRules.WeatherTrend: `location` is a string. The source passes the query value `location as string` (server/routes.ts:332-338), which may be absent; what storage does with an absent location is foreign to this model.
- Wire formats: JSON parsing and serialisation, WebSocket framing, Express plumbing, ISO timestamps, locale time strings and weekday names are presentation. A reading's `timestamp` is an integer.
- The hard-coded tables of `/api/ml/pollutants` and `/api/ml/performance`, the chat, voice, settings and supported-cities endpoints, and the chat history query are out.
- The `status` field of the map's location table is never read by the page and is left out, along with the icons and the React rendering of all components.

=== FILE: aqi_card.dfy ===
/** client/src/components/AQICard.tsx: the six-band AQI category shown on
    the AQI card. The bands are described twice: by the source's `if` chain
    (`Classify`), and independently by the table of upper bounds `Bounds`,
    where a value's band index is the number of bounds it exceeds. */
module AqiCard {

  datatype Category = Good | Moderate | UnhealthyForSensitive | Unhealthy | VeryUnhealthy | Hazardous

  /** The inclusive upper bounds of the first five bands, in increasing
      order; the last band has none. */
  const Bounds: seq<int> := [50, 100, 150, 200, 300]

  /** The position of a category on the scale, from 0 (Good) to 5 (Hazardous). */
  function Severity(c: Category): (n: nat)
    ensures n < 6
  {
    match c
    case Good => 0
    case Moderate => 1
    case UnhealthyForSensitive => 2
    case Unhealthy => 3
    case VeryUnhealthy => 4
    case Hazardous => 5
  }

  /** Band `k` of the table holds the values above bound `k - 1` (if any)
      and at most bound `k` (if any). */
  ghost predicate InBand(aqi: int, k: nat)
  {
    && k < 6
    && (k == 0 || Bounds[k - 1] < aqi)
    && (k == 5 || aqi <= Bounds[k])
  }

  /** How many of the bounds `aqi` exceeds. */
  function CountAbove(bounds: seq<int>, aqi: int): (n: nat)
    ensures n <= |bounds|
    decreases |bounds|
  {
    if |bounds| == 0 then 0
    else (if bounds[0] < aqi then 1 else 0) + CountAbove(bounds[1..], aqi)
  }

  /** `getAQICategory` (lines 14-21): the first band whose upper bound is
      not below the value; above 300 is Hazardous. Upper bounds are
      inclusive. */
  function Classify(aqi: int): (c: Category)
    ensures InBand(aqi, Severity(c))
  {
    if aqi <= 50 then Good
    else if aqi <= 100 then Moderate
    else if aqi <= 150 then UnhealthyForSensitive
    else if aqi <= 200 then Unhealthy
    else if aqi <= 300 then VeryUnhealthy
    else Hazardous
  }

  /** The bands partition the integers: each value lies in exactly one band,
      the band of its category. */
  lemma BandsPartition(aqi: int, k: nat)
    ensures InBand(aqi, k) <==> k == Severity(Classify(aqi))
  {
  }

  /** In an increasing table, the values exceeding the first `CountAbove`
      bounds are exactly those exceeding every earlier bound. */
  lemma {:induction false} CountAboveIsPrefix(bounds: seq<int>, aqi: int, k: nat)
    requires forall i, j :: 0 <= i < j < |bounds| ==> bounds[i] < bounds[j]
    requires k <= |bounds|
    requires forall i :: 0 <= i < k ==> bounds[i] < aqi
    requires k == |bounds| || aqi <= bounds[k]
    ensures CountAbove(bounds, aqi) == k
    decreases |bounds|
  {
    if |bounds| > 0 {
      var tail := bounds[1..];
      if k == 0 {
        assert forall i :: 0 <= i < |tail| ==> aqi <= bounds[0] < tail[i];
        CountAboveIsPrefix(tail, aqi, 0);
      } else {
        assert forall i :: 0 <= i < k - 1 ==> tail[i] == bounds[i + 1];
        CountAboveIsPrefix(tail, aqi, k - 1);
      }
    }
  }

  /** The `if` chain agrees with the table: a value's severity is the number
      of upper bounds it exceeds. */
  lemma SeverityCountsBounds(aqi: int)
    ensures Severity(Classify(aqi)) == CountAbove(Bounds, aqi)
  {
    var k := Severity(Classify(aqi));
    CountAboveIsPrefix(Bounds, aqi, k);
  }

  /** More pollution never reads as a milder category. */
  lemma {:induction false} CountAboveMonotone(bounds: seq<int>, a: int, b: int)
    requires a <= b
    ensures CountAbove(bounds, a) <= CountAbove(bounds, b)
    decreases |bounds|
  {
    if |bounds| > 0 {
      CountAboveMonotone(bounds[1..], a, b);
    }
  }

  /** Severity is monotone in the AQI. */
  lemma ClassifyMonotone(a: int, b: int)
    requires a <= b
    ensures Severity(Classify(a)) <= Severity(Classify(b))
  {
    SeverityCountsBounds(a);
    SeverityCountsBounds(b);
    CountAboveMonotone(Bounds, a, b);
  }

  /** The inclusive upper bounds at the edges of the scale. */
  lemma Boundaries()
    ensures Classify(50) == Good && Classify(51) == Moderate
    ensures Classify(100) == Moderate && Classify(101) == UnhealthyForSensitive
    ensures Classify(150) == UnhealthyForSensitive && Classify(151) == Unhealthy
    ensures Classify(200) == Unhealthy && Classify(201) == VeryUnhealthy
    ensures Classify(300) == VeryUnhealthy && Classify(301) == Hazardous
  {
  }

  /** The card's styling for a category. */
  datatype Style = Style(caption: string, color: string, bgGradient: string)

  /** The label each category is shown with. */
  function Label(c: Category): string
  {
    match c
    case Good => "Good"
    case Moderate => "Moderate"
    case UnhealthyForSensitive => "Unhealthy for Sensitive"
    case Unhealthy => "Unhealthy"
    case VeryUnhealthy => "Very Unhealthy"
    case Hazardous => "Hazardous"
  }

  /** Different categories are shown with different labels, so the label
      identifies the band. */
  lemma LabelsDistinct(c: Category, d: Category)
    ensures Label(c) == Label(d) <==> c == d
  {
  }

  /** The styling `getAQICategory` returns (lines 15-20); the icon is left
      out. */
  function CategoryStyle(aqi: int): (s: Style)
    ensures s.caption == Label(Classify(aqi))
  {
    match Classify(aqi)
    case Good => Style("Good", "bg-emerald-500", "from-emerald-50 to-emerald-100")
    case Moderate => Style("Moderate", "bg-yellow-500", "from-yellow-50 to-yellow-100")
    case UnhealthyForSensitive => Style("Unhealthy for Sensitive", "bg-orange-500", "from-orange-50 to-orange-100")
    case Unhealthy => Style("Unhealthy", "bg-red-500", "from-red-50 to-red-100")
    case VeryUnhealthy => Style("Very Unhealthy", "bg-purple-600", "from-purple-50 to-purple-100")
    case Hazardous => Style("Hazardous", "bg-red-900", "from-red-100 to-red-200")
  }

  /** Two values get the same badge colour exactly when they are in the same
      band. */
  lemma ColorIdentifiesBand(a: int, b: int)
    ensures CategoryStyle(a).color == CategoryStyle(b).color <==> Classify(a) == Classify(b)
  {
  }
}

=== FILE: arima_predictor.dfy ===
/** The auto-regressive forecaster of server/services/arimaPredictor.ts:
    `fitARModel` fits a simplified Yule-Walker AR(p) model to a
    most-recent-first series, and `arimaForecast` projects it forward step
    by step, pulling every raw prediction 30% back towards the series mean
    and rounding it. Confidence is one clamped score for the whole horizon. */
module ArimaPredictor {
  import opened Numerics

  /** The default order `p = 3`. */
  const DefaultOrder: nat := 3

  /** The fitted model (`ARModel`). */
  datatype ARModel = ARModel(
    coefficients: seq<real>,
    intercept: real,
    residuals: seq<real>,
    residualStd: real,
    mean: real)

  /** The result of `arimaForecast`. */
  datatype Forecast = Forecast(forecast: seq<int>, confidence: int)

  /** The data centred on `mean`. */
  function Center(data: seq<real>, mean: real): (c: seq<real>)
    ensures |c| == |data|
  {
    seq(|data|, i requires 0 <= i < |data| => data[i] - mean)
  }

  /** The sum of the lag products `c[i] * c[i - lag]` for `lag <= i < hi`. */
  function LagProducts(c: seq<real>, lag: nat, hi: nat): real
    requires hi <= |c|
    decreases hi
  {
    if hi <= lag then 0.0 else LagProducts(c, lag, hi - 1) + c[hi - 1] * c[hi - 1 - lag]
  }

  /** The autocorrelation at one lag: the lag products averaged over the
      `n - lag` of them there are, or 0 when there are none. */
  function Autocorrelation(c: seq<real>, lag: nat): real
  {
    if lag < |c| then LagProducts(c, lag, |c|) / (|c| - lag) as real else 0.0
  }

  /** The autocorrelations at lags `0..p`. */
  function Autocorrelations(c: seq<real>, p: nat): (acf: seq<real>)
    ensures |acf| == p + 1
  {
    seq(p + 1, lag requires 0 <= lag <= p => Autocorrelation(c, lag))
  }

  /** The nested loop that builds `acf` (arimaPredictor.ts lines 37-46): for
      each lag it sums the products and counts them, then pushes the average.
      It computes exactly the autocorrelations defined above. */
  method ComputeAutocorrelations(centered: seq<real>, p: nat) returns (acf: seq<real>)
    ensures |acf| == p + 1
    ensures forall lag :: 0 <= lag <= p ==>
      acf[lag] == (if lag < |centered| then LagProducts(centered, lag, |centered|) / (|centered| - lag) as real else 0.0)
  {
    acf := [];
    var lag := 0;
    while lag <= p
      invariant lag <= p + 1
      invariant |acf| == lag
      invariant forall k :: 0 <= k < lag ==> acf[k] == Autocorrelation(centered, k)
    {
      var sum := 0.0;
      var count := 0;
      var i := lag;
      while i < |centered|
        invariant lag <= i
        invariant i <= |centered| || i == lag
        invariant count == i - lag
        invariant sum == (if i <= |centered| then LagProducts(centered, lag, i) else 0.0)
      {
        sum := sum + centered[i] * centered[i - lag];
        count := count + 1;
        i := i + 1;
      }
      acf := acf + [if count > 0 then sum / count as real else 0.0];
      lag := lag + 1;
    }
  }

  /** `sum over j < k of coefs[j] * (xs[t - j - 1] - offset)`: the weighted
      lag sum that both the residual loop and the forecast loop compute. */
  function LagCombination(coefs: seq<real>, xs: seq<real>, t: nat, k: nat, offset: real): real
    requires k <= |coefs|
    requires k <= t <= |xs|
    decreases k
  {
    if k == 0 then 0.0
    else LagCombination(coefs, xs, t, k - 1, offset) + coefs[k - 1] * (xs[t - k] - offset)
  }

  /** A lag sum whose weights are all zero is zero. */
  lemma {:induction false} LagCombinationOfZeros(coefs: seq<real>, xs: seq<real>, t: nat, k: nat, offset: real)
    requires k <= |coefs|
    requires k <= t <= |xs|
    requires AllEqual(coefs, 0.0)
    ensures LagCombination(coefs, xs, t, k, offset) == 0.0
  {
    if k > 0 {
      LagCombinationOfZeros(coefs, xs, t, k - 1, offset);
    }
  }

  /** The coefficient derivation (lines 48-53): half the autocorrelation
      ratio, plus 0.3 on the first coefficient, all zero when `acf[0] == 0`. */
  function Coefficients(acf: seq<real>, p: nat): (coefs: seq<real>)
    requires |acf| == p + 1
    ensures |coefs| == p
  {
    seq(p, i requires 0 <= i < p =>
      if acf[0] != 0.0 then (acf[i + 1] / acf[0]) * 0.5 + (if i == 0 then 0.3 else 0.0) else 0.0)
  }

  /** The one-step-ahead residuals over the centred history (lines 56-63). */
  function Residuals(centered: seq<real>, coefs: seq<real>, p: nat): (r: seq<real>)
    requires |coefs| == p <= |centered|
    ensures |r| == |centered| - p
  {
    seq(|centered| - p, k requires 0 <= k < |centered| - p =>
      centered[p + k] - LagCombination(coefs, centered, p + k, p, 0.0))
  }

  /** `fitARModel`. Fewer than `p + 2` points give the fallback model: zero
      coefficients, no residuals, the most recent value as intercept. With
      enough points the intercept is the mean and coefficient `i` is
      `0.5 * acf[i+1] / acf[0]`, plus 0.3 for `i == 0`, or 0 when `acf[0]`
      vanishes. */
  function FitARModel(series: seq<real>, p: nat, sqrt: real -> real): (m: ARModel)
    ensures |m.coefficients| == p
    ensures m.mean == Mean(Reverse(series))
    ensures |series| < p + 2 ==>
      && AllEqual(m.coefficients, 0.0)
      && m.residualStd == 0.0
      && m.residuals == []
      && m.intercept == (if |series| == 0 then 0.0 else series[0])
    ensures |series| >= p + 2 ==>
      var acf := Autocorrelations(Center(Reverse(series), m.mean), p);
      && m.intercept == m.mean
      && |m.residuals| == |series| - p
      && (forall i :: 0 <= i < p ==>
            m.coefficients[i] == (if acf[0] == 0.0 then 0.0
                                  else 0.5 * acf[i + 1] / acf[0] + (if i == 0 then 0.3 else 0.0)))
    ensures IsSqrt(sqrt) ==> 0.0 <= m.residualStd
  {
    var data := Reverse(series);
    if |data| < p + 2 then
      ARModel(seq(p, _ => 0.0), if |data| == 0 then 0.0 else data[|data| - 1], [], 0.0, Mean(data))
    else
      var mean := Sum(data) / |data| as real;
      var centered := Center(data, mean);
      var coefs := Coefficients(Autocorrelations(centered, p), p);
      var residuals := Residuals(centered, coefs, p);
      var variance := Variance(residuals);
      VarianceNonNegative(residuals);
      ARModel(coefs, mean, residuals, sqrt(variance), mean)
  }

  /** One forecast step (lines 89-95): the intercept plus the lag sum over
      the last `min(p, |working|)` values, blended 70/30 with the mean. */
  function StepValue(m: ARModel, p: nat, working: seq<real>): real
    requires |m.coefficients| == p
  {
    var k := Min(p, |working|);
    (m.intercept + LagCombination(m.coefficients, working, |working|, k, m.mean)) * 0.7 + m.mean * 0.3
  }

  /** The unrounded predictions of `steps` iterations, each appended to the
      working data before the next one is made (lines 88-99). */
  function Project(m: ARModel, p: nat, working: seq<real>, steps: nat): (preds: seq<real>)
    requires |m.coefficients| == p
    ensures |preds| == steps
    decreases steps
  {
    if steps == 0 then []
    else
      var x := StepValue(m, p, working);
      [x] + Project(m, p, working + [x], steps - 1)
  }

  /** The raw predictions `arimaForecast` rounds. */
  function RawForecast(series: seq<real>, steps: nat, p: nat, sqrt: real -> real): (preds: seq<real>)
    ensures |preds| == steps
  {
    Project(FitARModel(series, p, sqrt), p, Reverse(series), steps)
  }

  /** `x - 1/2 < n <= x + 1/2`: `n` is what `Math.round` makes of `x`. */
  ghost predicate RoundsTo(x: real, n: int)
  {
    x - 0.5 < n as real <= x + 0.5
  }

  /** `arimaForecast`. An empty series gives `steps` zeros with confidence 0,
      below the [40, 90] band every non-empty series gets; otherwise there
      are `steps` predictions, each the rounding of its raw value. */
  function ArimaForecast(series: seq<real>, steps: nat, p: nat, sqrt: real -> real): (r: Forecast)
    ensures |r.forecast| == steps
    ensures |series| == 0 ==> r.confidence == 0 && forall i :: 0 <= i < steps ==> r.forecast[i] == 0
    ensures |series| > 0 ==> 40 <= r.confidence <= 90
    ensures |series| > 0 ==>
      forall i :: 0 <= i < steps ==> RoundsTo(RawForecast(series, steps, p, sqrt)[i], r.forecast[i])
  {
    if |series| == 0 then
      Forecast(seq(steps, _ => 0), 0)
    else
      var m := FitARModel(series, p, sqrt);
      var preds := Project(m, p, Reverse(series), steps);
      Forecast(seq(steps, i requires 0 <= i < steps => Round(preds[i])),
               Clamp(Round(85.0 - m.residualStd * 2.0), 40, 90))
  }

  /** A model with all-zero coefficients predicts the same blended value at
      every step, whatever the working data. */
  lemma {:induction false} ZeroModelProjectsConstant(m: ARModel, p: nat, working: seq<real>, steps: nat)
    requires |m.coefficients| == p
    requires AllEqual(m.coefficients, 0.0)
    ensures AllEqual(Project(m, p, working, steps), m.intercept * 0.7 + m.mean * 0.3)
    decreases steps
  {
    if steps > 0 {
      var x := StepValue(m, p, working);
      LagCombinationOfZeros(m.coefficients, working, |working|, Min(p, |working|), m.mean);
      ZeroModelProjectsConstant(m, p, working + [x], steps - 1);
    }
  }

  /** Too short a series (fewer than `p + 2` points): every step predicts
      `round(0.7 * series[0] + 0.3 * mean)` and the confidence is 85. */
  lemma ShortSeriesForecastIsFlat(series: seq<real>, steps: nat, p: nat, sqrt: real -> real)
    requires 0 < |series| < p + 2
    ensures var r := ArimaForecast(series, steps, p, sqrt);
      && r.confidence == 85
      && forall i :: 0 <= i < steps ==>
           r.forecast[i] == Round(0.7 * series[0] + 0.3 * Mean(Reverse(series)))
  {
    var m := FitARModel(series, p, sqrt);
    ZeroModelProjectsConstant(m, p, Reverse(series), steps);
    RoundWhole(85);
  }

  /** A centred constant series has zero autocorrelation at lag 0. */
  lemma {:induction false} LagProductsOfZeros(c: seq<real>, lag: nat, hi: nat)
    requires hi <= |c|
    requires AllEqual(c, 0.0)
    ensures LagProducts(c, lag, hi) == 0.0
  {
    if hi > lag {
      LagProductsOfZeros(c, lag, hi - 1);
    }
  }

  /** A constant whole-number series of at least `p + 2` points is a fixed
      point: `acf[0] == 0`, so every coefficient is zero, every forecast is
      the constant itself, the residuals vanish, and the confidence is 85. */
  lemma ConstantSeriesForecastsItself(series: seq<real>, c: int, steps: nat, p: nat, sqrt: real -> real)
    requires IsSqrt(sqrt)
    requires |series| >= p + 2
    requires AllEqual(series, c as real)
    ensures var r := ArimaForecast(series, steps, p, sqrt);
      && r.confidence == 85
      && forall i :: 0 <= i < steps ==> r.forecast[i] == c
  {
    var data := Reverse(series);
    assert AllEqual(data, c as real);
    SumOfConstant(data, c as real);
    var mean := Sum(data) / |data| as real;
    assert mean == c as real;
    var centered := Center(data, mean);
    assert AllEqual(centered, 0.0);
    LagProductsOfZeros(centered, 0, |centered|);
    var acf := Autocorrelations(centered, p);
    assert acf[0] == 0.0;
    var m := FitARModel(series, p, sqrt);
    assert AllEqual(m.coefficients, 0.0);
    ZeroModelProjectsConstant(m, p, data, steps);
    assert m.intercept * 0.7 + m.mean * 0.3 == c as real;
    RoundWhole(c);
    var residuals := Residuals(centered, m.coefficients, p);
    forall k | 0 <= k < |residuals|
      ensures residuals[k] == 0.0
    {
      LagCombinationOfZeros(m.coefficients, centered, p + k, p, 0.0);
    }
    VarianceOfConstant(residuals, 0.0);
    assert m.residualStd == 0.0;
    RoundWhole(85);
  }
}

=== FILE: data_collector.dfy ===
/** server/services/dataCollector.ts: the `DataCollectorService` that keeps
    the reading store filled. It is a two-state machine (`isRunning`) with
    idempotent `start` and `stop`; `start` schedules one periodic job and
    runs one collection immediately. A collection visits every default city
    in order; one city's failure is caught and never stops the next. The
    on-demand `collectForCity` appends one reading or re-throws.

    The provider (`openWeatherService.getAQIData`) and the store
    (`storage.createAQIReading`) are parameters `fetch` and `persist`; the
    store's contents are the appended sequence `store`. Scheduling is
    reduced to a set of active job ids, and a timer firing is an explicit
    step (`Fire`). */
module DataCollector {
  import opened Wrappers
  import opened Readings

  /** `defaultCities`. */
  const DefaultCities: seq<string> := ["bengaluru", "delhi", "mumbai", "chennai", "hyderabad"]

  /** The provider: one reading per city, or the error it throws. */
  type Fetch = string -> Result<ProviderReading, string>

  /** The store: accepts a row, or throws. */
  type Persist = AQIInsert -> Outcome<string>

  /** The service's fields, plus what the environment can observe: the
      scheduler's active jobs, the next job id, every city the provider was
      asked for, and the rows the store accepted. */
  datatype Collector = Collector(
    isRunning: bool,
    cronJob: Option<nat>,
    collectionInterval: Option<nat>,
    activeJobs: set<nat>,
    nextJob: nat,
    fetched: seq<string>,
    store: seq<AQIInsert>)

  /** A freshly constructed service: stopped, nothing scheduled, nothing
      collected. */
  const Initial: Collector := Collector(false, None, None, {}, 0, [], [])

  /** The states the service can reach: running exactly when it holds a job,
      that job the only one active, and no interval ever set. */
  ghost predicate Valid(c: Collector)
  {
    && (c.isRunning <==> c.cronJob.Some?)
    && c.activeJobs == (if c.cronJob.Some? then {c.cronJob.value} else {})
    && (forall j :: j in c.activeJobs ==> j < c.nextJob)
    && c.collectionInterval.None?
  }

  /** A freshly constructed service is in a reachable state: stopped, with
      no job and nothing collected. */
  lemma InitialIsValid()
    ensures Valid(Initial)
    ensures !Initial.isRunning && Initial.activeJobs == {} && Initial.store == []
  {
  }

  /** The rows one collection appends: for each city in order, the provider's
      reading when both the fetch and the store succeed, nothing otherwise. */
  function Harvest(cities: seq<string>, fetch: Fetch, persist: Persist): (rows: seq<AQIInsert>)
    ensures |rows| <= |cities|
    decreases |cities|
  {
    if |cities| == 0 then []
    else
      var last := cities[|cities| - 1];
      Harvest(cities[..|cities| - 1], fetch, persist) + CityRows(last, fetch, persist)
  }

  /** The rows one city contributes: its reading, or none when the fetch or
      the store throws. */
  function CityRows(city: string, fetch: Fetch, persist: Persist): (rows: seq<AQIInsert>)
    ensures |rows| <= 1
    ensures |rows| == 1 <==> fetch(city).Ok? && persist(ToInsert(fetch(city).value)).Pass?
    ensures |rows| == 1 ==> rows[0] == ToInsert(fetch(city).value)
  {
    match fetch(city)
    case Err(_) => []
    case Ok(data) => if persist(ToInsert(data)).Pass? then [ToInsert(data)] else []
  }

  /** `collectData` (lines 46-74): the `for ... of` loop with its `try`/`catch`.
      Every default city is asked for, in order, and the store gains exactly
      the rows of the cities whose fetch and store succeeded. */
  method CollectData(c: Collector, fetch: Fetch, persist: Persist) returns (c': Collector)
    ensures c'.fetched == c.fetched + DefaultCities
    ensures c'.store == c.store + Harvest(DefaultCities, fetch, persist)
    ensures c' == c.(fetched := c'.fetched, store := c'.store)
  {
    var fetched := c.fetched;
    var store := c.store;
    for i := 0 to |DefaultCities|
      invariant fetched == c.fetched + DefaultCities[..i]
      invariant store == c.store + Harvest(DefaultCities[..i], fetch, persist)
    {
      var city := DefaultCities[i];
      HarvestStep(DefaultCities, i, fetch, persist);
      assert DefaultCities[..i + 1] == DefaultCities[..i] + [city];
      fetched := fetched + [city];
      var data := fetch(city);
      if data.Ok? {
        var row := ToInsert(data.value);
        var stored := persist(row);
        if stored.Pass? {
          store := store + [row];
        }
      }
    }
    assert DefaultCities[..|DefaultCities|] == DefaultCities;
    c' := c.(fetched := fetched, store := store);
  }

  /** One more city extends a collection by that city's rows. */
  lemma HarvestStep(cities: seq<string>, i: nat, fetch: Fetch, persist: Persist)
    requires i < |cities|
    ensures Harvest(cities[..i + 1], fetch, persist) == Harvest(cities[..i], fetch, persist) + CityRows(cities[i], fetch, persist)
  {
    assert cities[..i + 1][..i] == cities[..i];
  }

  /** `start` (lines 13-27). Already running: nothing happens. Otherwise one
      job is scheduled, one collection runs at once, and the service is
      running. */
  method Start(c: Collector, fetch: Fetch, persist: Persist) returns (c': Collector)
    ensures c.isRunning ==> c' == c
    ensures !c.isRunning ==>
      && c'.isRunning
      && c'.cronJob == Some(c.nextJob)
      && c'.activeJobs == c.activeJobs + {c.nextJob}
      && c'.nextJob == c.nextJob + 1
      && c'.fetched == c.fetched + DefaultCities
      && c'.store == c.store + Harvest(DefaultCities, fetch, persist)
    ensures Valid(c) ==> Valid(c')
  {
    if c.isRunning {
      return c;
    }
    var job := c.nextJob;
    c' := c.(cronJob := Some(job), activeJobs := c.activeJobs + {job}, nextJob := job + 1);
    c' := CollectData(c', fetch, persist);
    c' := c'.(isRunning := true);
  }

  /** `stop` (lines 29-42): whatever the state, the job is cancelled, both
      handles are cleared and the service is stopped; collected data stays. */
  function Stop(c: Collector): (c': Collector)
    ensures !c'.isRunning && c'.cronJob.None? && c'.collectionInterval.None?
    ensures c'.store == c.store && c'.fetched == c.fetched && c'.nextJob == c.nextJob
    ensures c.cronJob.Some? ==> c'.activeJobs == c.activeJobs - {c.cronJob.value}
    ensures c.cronJob.None? ==> c'.activeJobs == c.activeJobs
    ensures Valid(c) ==> Valid(c') && c'.activeJobs == {}
  {
    var jobs := if c.cronJob.Some? then c.activeJobs - {c.cronJob.value} else c.activeJobs;
    c.(activeJobs := jobs, cronJob := None, collectionInterval := None, isRunning := false)
  }

  /** A timer tick of job `job`: a collection runs only if the job is still
      active, so a stopped service collects nothing more. */
  method Fire(c: Collector, job: nat, fetch: Fetch, persist: Persist) returns (c': Collector)
    ensures job !in c.activeJobs ==> c' == c
    ensures job in c.activeJobs ==>
      c'.store == c.store + Harvest(DefaultCities, fetch, persist) && c'.fetched == c.fetched + DefaultCities
    ensures Valid(c) ==> Valid(c')
  {
    if job in c.activeJobs {
      c' := CollectData(c, fetch, persist);
    } else {
      c' := c;
    }
  }

  /** The result of `collectForCity`: the service afterwards, and the error
      it re-throws, if any. */
  datatype ManualCollection = ManualCollection(collector: Collector, thrown: Option<string>)

  /** `collectForCity` (lines 76-99). On success exactly one row, the
      provider's reading, is appended; on failure nothing is appended and
      the very error the provider or the store threw is re-thrown. The
      running state is untouched either way. */
  function CollectForCity(c: Collector, city: string, fetch: Fetch, persist: Persist): (r: ManualCollection)
    ensures r.collector.fetched == c.fetched + [city]
    ensures r.collector == c.(fetched := r.collector.fetched, store := r.collector.store)
    ensures r.thrown.None? <==> fetch(city).Ok? && persist(ToInsert(fetch(city).value)).Pass?
    ensures r.thrown.None? ==> r.collector.store == c.store + [ToInsert(fetch(city).value)]
    ensures r.thrown.Some? ==> r.collector.store == c.store
    ensures fetch(city).Err? ==> r.thrown == Some(fetch(city).error)
    ensures fetch(city).Ok? && persist(ToInsert(fetch(city).value)).Fail? ==>
      r.thrown == Some(persist(ToInsert(fetch(city).value)).error)
  {
    var asked := c.(fetched := c.fetched + [city]);
    match fetch(city)
    case Err(e) => ManualCollection(asked, Some(e))
    case Ok(data) =>
      match persist(ToInsert(data))
      case Fail(e) => ManualCollection(asked, Some(e))
      case Pass => ManualCollection(asked.(store := asked.store + [ToInsert(data)]), None)
  }

  /** Collections compose: the rows of a list of cities are the rows of any
      prefix followed by the rows of the rest, so nothing that happens for
      the earlier cities, failures included, changes what the later ones
      contribute. */
  lemma {:induction false} HarvestSplits(cities: seq<string>, i: nat, fetch: Fetch, persist: Persist)
    requires i <= |cities|
    ensures Harvest(cities, fetch, persist) == Harvest(cities[..i], fetch, persist) + Harvest(cities[i..], fetch, persist)
    decreases |cities|
  {
    if i < |cities| {
      var n := |cities|;
      assert cities[..n - 1][..i] == cities[..i];
      HarvestSplits(cities[..n - 1], i, fetch, persist);
      assert cities[i..][..|cities[i..]| - 1] == cities[..n - 1][i..];
    } else {
      assert cities[..i] == cities;
    }
  }

  /** One city's failure never costs another city its reading: a city whose
      fetch and store succeed has its row in the collection, whatever the
      provider does for every other city. */
  lemma SucceedingCityIsCollected(cities: seq<string>, i: nat, fetch: Fetch, persist: Persist)
    requires i < |cities|
    requires fetch(cities[i]).Ok? && persist(ToInsert(fetch(cities[i]).value)).Pass?
    ensures ToInsert(fetch(cities[i]).value) in Harvest(cities, fetch, persist)
  {
    HarvestSplits(cities, i + 1, fetch, persist);
    HarvestSplits(cities[..i + 1], i, fetch, persist);
    assert cities[..i + 1][i..] == [cities[i]];
  }

  /** A city whose fetch and store both succeeded. */
  ghost predicate Succeeds(city: string, fetch: Fetch, persist: Persist)
  {
    fetch(city).Ok? && persist(ToInsert(fetch(city).value)).Pass?
  }

  /** A collection stores nothing but readings of succeeding cities. */
  lemma {:induction false} HarvestHoldsOnlySuccesses(cities: seq<string>, fetch: Fetch, persist: Persist)
    ensures forall row :: row in Harvest(cities, fetch, persist) ==>
      exists i :: 0 <= i < |cities| && Succeeds(cities[i], fetch, persist) && row == ToInsert(fetch(cities[i]).value)
    decreases |cities|
  {
    if |cities| > 0 {
      var n := |cities|;
      var prefix := cities[..n - 1];
      HarvestHoldsOnlySuccesses(prefix, fetch, persist);
      forall row | row in Harvest(cities, fetch, persist)
        ensures exists i :: 0 <= i < n && Succeeds(cities[i], fetch, persist) && row == ToInsert(fetch(cities[i]).value)
      {
        if row in Harvest(prefix, fetch, persist) {
          var i :| 0 <= i < |prefix| && Succeeds(prefix[i], fetch, persist) && row == ToInsert(fetch(prefix[i]).value);
          assert cities[i] == prefix[i];
        } else {
          assert Succeeds(cities[n - 1], fetch, persist) && row == ToInsert(fetch(cities[n - 1]).value);
        }
      }
    }
  }

  /** Stopping twice is stopping once. */
  lemma StopIsIdempotent(c: Collector)
    ensures Stop(Stop(c)) == Stop(c)
  {
  }

  /** Start, stop, start: the second start works again, with a fresh job. */
  method RestartWorks(c: Collector, fetch: Fetch, persist: Persist) returns (c': Collector)
    requires Valid(c)
    ensures Valid(c')
    ensures c'.isRunning && c'.activeJobs == {c'.cronJob.value}
    ensures c'.store == c.store + (if c.isRunning then [] else Harvest(DefaultCities, fetch, persist))
                               + Harvest(DefaultCities, fetch, persist)
  {
    var started := Start(c, fetch, persist);
    var stopped := Stop(started);
    c' := Start(stopped, fetch, persist);
  }
}

=== FILE: health_advisory.dfy ===
/** client/src/components/HealthAdvisory.tsx: the health advice shown for an
    AQI value. Unlike the AQI card it has five levels, not six: everything
    above 200 is Hazardous, so values from 201 to 300, which the card calls
    Very Unhealthy, are advised as Hazardous here. */
module HealthAdvisory {
  import AqiCard

  datatype Level = Good | Moderate | SensitiveGroups | Unhealthy | Hazardous

  /** The position of a level, from 0 (Good) to 4 (Hazardous). */
  function Rank(l: Level): (n: nat)
    ensures n < 5
  {
    match l
    case Good => 0
    case Moderate => 1
    case SensitiveGroups => 2
    case Unhealthy => 3
    case Hazardous => 4
  }

  /** The advice for one level (the icon is left out). */
  datatype Advice = Advice(
    level: Level,
    title: string,
    color: string,
    bgGradient: string,
    recommendations: seq<string>,
    sensitiveGroups: string)

  /** The level `getHealthRecommendations` picks (lines 14, 29, 44, 59,
      74): bounded above by 50, 100, 150 and 200, inclusive, with the last
      level holding everything above 200. */
  function LevelOf(aqi: int): (l: Level)
    ensures l == Good <==> aqi <= 50
    ensures l == Moderate <==> 50 < aqi <= 100
    ensures l == SensitiveGroups <==> 100 < aqi <= 150
    ensures l == Unhealthy <==> 150 < aqi <= 200
    ensures l == Hazardous <==> 200 < aqi
  {
    if aqi <= 50 then Good
    else if aqi <= 100 then Moderate
    else if aqi <= 150 then SensitiveGroups
    else if aqi <= 200 then Unhealthy
    else Hazardous
  }

  /** `getHealthRecommendations` (lines 13-87): the advice of the value's
      level. Hazardous advice lists four recommendations, every other level
      three. */
  function Recommend(aqi: int): (a: Advice)
    ensures a.level == LevelOf(aqi)
    ensures |a.recommendations| == (if a.level == Hazardous then 4 else 3)
  {
    AdviceFor(LevelOf(aqi))
  }

  /** The advice text of each level. */
  function AdviceFor(l: Level): (a: Advice)
    ensures a.level == l
    ensures |a.recommendations| == (if l == Hazardous then 4 else 3)
  {
    match l
    case Good => GoodAdvice
    case Moderate => ModerateAdvice
    case SensitiveGroups => SensitiveGroupsAdvice
    case Unhealthy => UnhealthyAdvice
    case Hazardous => HazardousAdvice
  }

  const GoodAdvice: Advice :=
    Advice(Good, "Good", "bg-emerald-500", "from-emerald-50 to-emerald-100",
           ["Perfect air quality for outdoor activities",
            "Safe for all groups including sensitive individuals",
            "Ideal time for exercise and recreation"],
           "No precautions needed")

  const ModerateAdvice: Advice :=
    Advice(Moderate, "Moderate", "bg-yellow-500", "from-yellow-50 to-yellow-100",
           ["Generally safe for outdoor activities",
            "Sensitive individuals may experience minor symptoms",
            "Consider reducing prolonged outdoor exertion"],
           "Children and elderly should limit extended outdoor activities")

  const SensitiveGroupsAdvice: Advice :=
    Advice(SensitiveGroups, "Unhealthy for Sensitive Groups", "bg-orange-500", "from-orange-50 to-orange-100",
           ["Sensitive groups should limit outdoor activities",
            "Wear N95 masks when going outside",
            "Keep windows closed, use air purifiers"],
           "Children, elderly, and people with heart/lung conditions should avoid outdoor exertion")

  const UnhealthyAdvice: Advice :=
    Advice(Unhealthy, "Unhealthy", "bg-red-600", "from-red-50 to-red-100",
           ["Everyone should limit outdoor activities",
            "Wear N95 or better masks outside",
            "Use air purifiers indoors, avoid opening windows"],
           "Everyone should avoid prolonged outdoor exertion")

  const HazardousAdvice: Advice :=
    Advice(Hazardous, "Hazardous", "bg-red-900", "from-red-100 to-red-200",
           ["Avoid all outdoor activities",
            "Stay indoors with air purifiers running",
            "Wear N95 masks even for brief outdoor exposure",
            "Consider relocating temporarily if possible"],
           "Everyone should avoid outdoor activities entirely")

  /** The advice never gets milder as the AQI rises. */
  lemma RecommendMonotone(a: int, b: int)
    requires a <= b
    ensures Rank(LevelOf(a)) <= Rank(LevelOf(b))
  {
  }

  /** Up to 200 the advisory and the AQI card draw the same boundaries: the
      advisory level's rank is the card category's severity. */
  lemma AgreesWithCardUpTo200(aqi: int)
    requires aqi <= 200
    ensures Rank(LevelOf(aqi)) == AqiCard.Severity(AqiCard.Classify(aqi))
  {
  }

  /** From 201 to 300 the two disagree: the card says Very Unhealthy and the
      advisory says Hazardous. Above 300 both say Hazardous. */
  lemma DivergesFromCardAbove200(aqi: int)
    requires 200 < aqi
    ensures LevelOf(aqi) == Hazardous
    ensures aqi <= 300 <==> AqiCard.Classify(aqi) == AqiCard.VeryUnhealthy
    ensures 300 < aqi <==> AqiCard.Classify(aqi) == AqiCard.Hazardous
  {
  }

  /** The third level is titled "Unhealthy for Sensitive Groups", where the
      card's label for the same band is "Unhealthy for Sensitive". */
  lemma SensitiveTitleDiffersFromCard(aqi: int)
    requires 100 < aqi <= 150
    ensures Recommend(aqi).title == "Unhealthy for Sensitive Groups"
    ensures AqiCard.Label(AqiCard.Classify(aqi)) == "Unhealthy for Sensitive"
    ensures Recommend(aqi).title != AqiCard.Label(AqiCard.Classify(aqi))
  {
  }
}

=== FILE: live_stream.dfy ===
/** The WebSocket side of server/routes.ts: a registry of connected clients
    (a JavaScript `Set`, kept here as an insertion-ordered sequence without
    duplicates, which is also the order `forEach` visits it in) and the
    `connection`, `message`, `close` and `error` handlers as one pure
    transition per event. A step yields the new registry, the messages sent
    (recipient and tagged payload, in order) and the device readings
    stored.

    The socket's `readyState` belongs to the transport and is a parameter
    (`ready`); so is the device-reading store (`persist`, false when
    `storage.createIoTReading` throws). JSON framing is reduced to a parsed
    or unparsable payload; timestamps are left out. */
module LiveStream {

  /** A connection handle. */
  type ClientId = nat

  /** `WebSocket.readyState`. */
  datatype ReadyState = Connecting | Open | Closing | Closed

  /** The device fields an `iot_reading` message carries. */
  datatype DeviceReading = DeviceReading(
    deviceId: string,
    location: string,
    pm25: real,
    pm10: real,
    temperature: real,
    humidity: real,
    batteryLevel: real,
    signalStrength: real)

  /** A parsed inbound message: its `type` tag and the fields the handlers read. */
  datatype Inbound = Inbound(msgType: string, reading: DeviceReading, subscription: string)

  /** What `JSON.parse` made of a frame: a message object, or a throw
      (including a frame that parses to `null`, whose `.type` throws). */
  datatype Payload = Unparsable | Parsed(msg: Inbound)

  /** The tagged messages the server sends. */
  datatype Outbound =
    | ConnectionAck
    | IotUpdate(deviceId: string, location: string, data: Inbound)
    | SubscriptionConfirmed(subscription: string)
    | InvalidFormat

  datatype Send = Send(to: ClientId, msg: Outbound)

  /** The events the handlers react to. */
  datatype Event =
    | Connected(client: ClientId)
    | MessageFrom(client: ClientId, payload: Payload)
    | ClosedBy(client: ClientId)
    | ErroredOn(client: ClientId)

  /** `connectedClients`. */
  datatype Hub = Hub(clients: seq<ClientId>)

  /** The result of one handler invocation. */
  datatype Step = Step(hub: Hub, sends: seq<Send>, stored: seq<DeviceReading>)

  ghost predicate Distinct(s: seq<ClientId>)
  {
    forall i, j :: 0 <= i < j < |s| ==> s[i] != s[j]
  }

  /** A well-formed registry holds each client once, as a `Set` does. */
  ghost predicate Valid(hub: Hub)
  {
    Distinct(hub.clients)
  }

  /** The registry as the server starts it: `new Set()` (line 662). */
  const Empty: Hub := Hub([])

  /** The empty registry holds each client at most once. */
  lemma EmptyHubIsValid()
    ensures Valid(Empty)
    ensures |Empty.clients| == 0
  {
  }

  /** The recipients of a list of sends, in order. */
  function Recipients(sends: seq<Send>): (r: seq<ClientId>)
    ensures |r| == |sends|
    ensures forall i :: 0 <= i < |sends| ==> r[i] == sends[i].to
  {
    seq(|sends|, i requires 0 <= i < |sends| => sends[i].to)
  }

  /** `broadcastToClients` (lines 732-739): one copy of `msg` to every
      registered client that is open, in registration order. Closed or
      connecting clients are skipped but stay registered. */
  function Broadcast(clients: seq<ClientId>, ready: ClientId -> ReadyState, msg: Outbound): (sends: seq<Send>)
    ensures forall i :: 0 <= i < |sends| ==> sends[i].msg == msg
    ensures forall c :: c in Recipients(sends) <==> c in clients && ready(c) == Open
    ensures Distinct(clients) ==> Distinct(Recipients(sends))
    decreases |clients|
  {
    if |clients| == 0 then []
    else
      var rest := Broadcast(clients[1..], ready, msg);
      var c := clients[0];
      if ready(c) == Open then
        assert Recipients([Send(c, msg)] + rest) == [c] + Recipients(rest);
        [Send(c, msg)] + rest
      else rest
  }

  /** `Set.prototype.add`: a client already present keeps its place. */
  function Add(clients: seq<ClientId>, c: ClientId): (r: seq<ClientId>)
    ensures forall x :: x in r <==> x in clients || x == c
    ensures Distinct(clients) ==> Distinct(r)
  {
    if c in clients then clients else clients + [c]
  }

  /** `Set.prototype.delete`. */
  function Remove(clients: seq<ClientId>, c: ClientId): (r: seq<ClientId>)
    ensures forall x :: x in r <==> x in clients && x != c
    ensures Distinct(clients) ==> Distinct(r)
    decreases |clients|
  {
    if |clients| == 0 then []
    else if clients[0] == c then Remove(clients[1..], c)
    else
      var rest := Remove(clients[1..], c);
      assert Distinct(clients) ==> clients[0] !in clients[1..];
      [clients[0]] + rest
  }

  /** The `message` handler (lines 677-718). An `iot_reading` is stored and
      then broadcast; a failed store reports an error to the sender alone.
      A `subscribe` is confirmed to the sender alone. Any other type does
      nothing; an unparsable payload reports an error to the sender. */
  function OnMessage(hub: Hub, sender: ClientId, payload: Payload, ready: ClientId -> ReadyState,
                     persist: DeviceReading -> bool): Step
  {
    match payload
    case Unparsable => Step(hub, [Send(sender, InvalidFormat)], [])
    case Parsed(m) =>
      if m.msgType == "iot_reading" then
        if persist(m.reading) then
          Step(hub, Broadcast(hub.clients, ready, IotUpdate(m.reading.deviceId, m.reading.location, m)), [m.reading])
        else
          Step(hub, [Send(sender, InvalidFormat)], [])
      else if m.msgType == "subscribe" then
        Step(hub, [Send(sender, SubscriptionConfirmed(m.subscription))], [])
      else
        Step(hub, [], [])
  }

  /** One handler invocation: `connection` (lines 664-674), `message`,
      `close` (lines 720-723) or `error` (lines 725-728). */
  function Handle(hub: Hub, ev: Event, ready: ClientId -> ReadyState, persist: DeviceReading -> bool): (s: Step)
    ensures Valid(hub) ==> Valid(s.hub)
    ensures ev.Connected? ==>
      && s.sends == [Send(ev.client, ConnectionAck)]
      && s.stored == []
      && (forall x :: x in s.hub.clients <==> x in hub.clients || x == ev.client)
    ensures ev.ClosedBy? || ev.ErroredOn? ==>
      && s.sends == [] && s.stored == []
      && (forall x :: x in s.hub.clients <==> x in hub.clients && x != ev.client)
    ensures ev.MessageFrom? ==> s.hub == hub
  {
    match ev
    case Connected(c) => Step(Hub(Add(hub.clients, c)), [Send(c, ConnectionAck)], [])
    case MessageFrom(c, payload) => OnMessage(hub, c, payload, ready, persist)
    case ClosedBy(c) => Step(Hub(Remove(hub.clients, c)), [], [])
    case ErroredOn(c) => Step(Hub(Remove(hub.clients, c)), [], [])
  }

  /** The registry after handling `events` in order. Every registry the
      server can reach from a valid one is valid. */
  function Replay(hub: Hub, events: seq<Event>, ready: ClientId -> ReadyState,
                  persist: DeviceReading -> bool): (h: Hub)
    ensures Valid(hub) ==> Valid(h)
    decreases |events|
  {
    if |events| == 0 then hub
    else Replay(Handle(hub, events[0], ready, persist).hub, events[1..], ready, persist)
  }

  /** Whatever events the server handles from its start, no client is ever
      registered twice. */
  lemma ReachableHubIsValid(events: seq<Event>, ready: ClientId -> ReadyState, persist: DeviceReading -> bool)
    ensures Valid(Replay(Empty, events, ready, persist))
  {
    EmptyHubIsValid();
  }

  /** A valid device reading that the store accepts is stored exactly once,
      and then exactly one `iot_update` goes to every registered open client,
      the sender included when it is one, and to nobody else. */
  lemma IotReadingFansOut(hub: Hub, sender: ClientId, m: Inbound, ready: ClientId -> ReadyState,
                          persist: DeviceReading -> bool)
    requires Valid(hub)
    requires m.msgType == "iot_reading" && persist(m.reading)
    ensures var s := Handle(hub, MessageFrom(sender, Parsed(m)), ready, persist);
      && s.stored == [m.reading]
      && s.hub == hub
      && (forall i :: 0 <= i < |s.sends| ==> s.sends[i].msg == IotUpdate(m.reading.deviceId, m.reading.location, m))
      && (forall c :: c in Recipients(s.sends) <==> c in hub.clients && ready(c) == Open)
      && Distinct(Recipients(s.sends))
  {
  }

  /** A `subscribe` is answered to its sender alone, with no store write and
      no broadcast. */
  lemma SubscribeAnswersSenderOnly(hub: Hub, sender: ClientId, m: Inbound, ready: ClientId -> ReadyState,
                                   persist: DeviceReading -> bool)
    requires m.msgType == "subscribe"
    ensures var s := Handle(hub, MessageFrom(sender, Parsed(m)), ready, persist);
      s.sends == [Send(sender, SubscriptionConfirmed(m.subscription))] && s.stored == [] && s.hub == hub
  {
  }

  /** An unparsable payload, or an `iot_reading` the store rejects, earns the
      sender exactly one error and nothing else happens: no update is
      broadcast and nothing is stored. */
  lemma FailureRepliesErrorToSenderOnly(hub: Hub, sender: ClientId, payload: Payload,
                                        ready: ClientId -> ReadyState, persist: DeviceReading -> bool)
    requires payload.Unparsable? || (payload.msg.msgType == "iot_reading" && !persist(payload.msg.reading))
    ensures var s := Handle(hub, MessageFrom(sender, payload), ready, persist);
      s.sends == [Send(sender, InvalidFormat)] && s.stored == [] && s.hub == hub
  {
  }

  /** A parsed message of any other type is ignored. */
  lemma UnknownTypeIsIgnored(hub: Hub, sender: ClientId, m: Inbound, ready: ClientId -> ReadyState,
                             persist: DeviceReading -> bool)
    requires m.msgType != "iot_reading" && m.msgType != "subscribe"
    ensures Handle(hub, MessageFrom(sender, Parsed(m)), ready, persist) == Step(hub, [], [])
  {
  }

  /** Only an accepted `iot_reading` ever stores anything, and then exactly
      one reading: every other event leaves the store alone. */
  lemma StoreWritesOnlyOnAcceptedReading(hub: Hub, ev: Event, ready: ClientId -> ReadyState,
                                         persist: DeviceReading -> bool)
    ensures var s := Handle(hub, ev, ready, persist);
      && |s.stored| <= 1
      && (|s.stored| == 1 <==>
            ev.MessageFrom? && ev.payload.Parsed? && ev.payload.msg.msgType == "iot_reading"
            && persist(ev.payload.msg.reading))
  {
  }
}

=== FILE: map_view.dfy ===
/** client/src/pages/MapView.tsx: the map's colour and category helpers,
    the recommendation tiers of the detail panel, and the lookup of the
    selected location in the page's fixed location table. The helpers
    repeat AQICard's thresholds; the lemmas here show they agree with it. */
module MapView {
  import opened Wrappers
  import AqiCard

  /** The marker colours, one per band, mildest first. */
  const Colors: seq<string> := ["bg-chart-1", "bg-chart-2", "bg-chart-3", "bg-chart-4", "bg-chart-5", "bg-red-600"]

  /** The category labels, one per band, mildest first. */
  const Labels: seq<string> := ["Good", "Moderate", "Unhealthy for Sensitive", "Unhealthy", "Very Unhealthy", "Hazardous"]

  /** `getAQIColor` (lines 19-26): the colour of the band the value falls
      in, by the same inclusive thresholds as the category. */
  function AqiColor(aqi: int): (color: string)
    ensures color == Colors[AqiCard.Severity(AqiCard.Classify(aqi))]
  {
    if aqi <= 50 then "bg-chart-1"
    else if aqi <= 100 then "bg-chart-2"
    else if aqi <= 150 then "bg-chart-3"
    else if aqi <= 200 then "bg-chart-4"
    else if aqi <= 300 then "bg-chart-5"
    else "bg-red-600"
  }

  /** `getAQICategory` (lines 28-35): the band's label. */
  function AqiCategory(aqi: int): (name: string)
    ensures name == Labels[AqiCard.Severity(AqiCard.Classify(aqi))]
  {
    if aqi <= 50 then "Good"
    else if aqi <= 100 then "Moderate"
    else if aqi <= 150 then "Unhealthy for Sensitive"
    else if aqi <= 200 then "Unhealthy"
    else if aqi <= 300 then "Very Unhealthy"
    else "Hazardous"
  }

  /** The position of an entry in a table of distinct entries. */
  function IndexOf(table: seq<string>, x: string): (r: Option<nat>)
    ensures r.Some? ==> r.value < |table| && table[r.value] == x
    ensures r.None? <==> x !in table
    ensures r.Some? ==> forall i :: 0 <= i < r.value ==> table[i] != x
    decreases |table|
  {
    if |table| == 0 then None
    else if table[0] == x then Some(0)
    else
      var rest := IndexOf(table[1..], x);
      if rest.None? then None else Some(rest.value + 1)
  }

  /** The marker colour and the category label of a value always name the
      same band. */
  lemma ColorBandIsCategoryBand(aqi: int)
    ensures IndexOf(Colors, AqiColor(aqi)) == IndexOf(Labels, AqiCategory(aqi))
    ensures IndexOf(Labels, AqiCategory(aqi)) == Some(AqiCard.Severity(AqiCard.Classify(aqi)))
  {
    var k := AqiCard.Severity(AqiCard.Classify(aqi));
    FirstIndex(Colors, k);
    FirstIndex(Labels, k);
  }

  /** In a table without repeats, an entry's index is its position. */
  lemma FirstIndex(table: seq<string>, k: nat)
    requires k < |table|
    requires forall i, j :: 0 <= i < j < |table| ==> table[i] != table[j]
    ensures IndexOf(table, table[k]) == Some(k)
  {
    var r := IndexOf(table, table[k]);
    assert r.Some?;
    assert !(r.value < k) && !(r.value > k);
  }

  /** The map and the AQI card show the same label for every value. */
  lemma CategoryMatchesCard(aqi: int)
    ensures AqiCategory(aqi) == AqiCard.Label(AqiCard.Classify(aqi))
    ensures AqiCategory(aqi) == AqiCard.CategoryStyle(aqi).caption
  {
  }

  /** The three advice lists of the detail panel. */
  datatype Tier = Avoid | Limit | Safe

  /** The tier chosen at lines 208-227. */
  function RecommendationTier(aqi: int): (t: Tier)
    ensures t == Avoid <==> aqi > 150
    ensures t == Limit <==> 100 < aqi <= 150
    ensures t == Safe <==> aqi <= 100
  {
    if aqi > 150 then Avoid
    else if aqi > 100 then Limit
    else Safe
  }

  /** The advice each tier lists. */
  function Recommendations(t: Tier): (items: seq<string>)
    ensures t == Avoid ==> |items| == 4
    ensures t != Avoid ==> |items| == 3
  {
    match t
    case Avoid => ["Avoid outdoor activities", "Wear N95 mask if going out", "Keep windows closed", "Use air purifiers indoors"]
    case Limit => ["Limit outdoor activities", "Sensitive groups use caution", "Consider wearing mask"]
    case Safe => ["Safe for outdoor activities", "Good air quality", "No special precautions needed"]
  }

  /** The tiers follow the bands: avoid exactly for the three unhealthy
      bands, limit exactly for the sensitive band, safe for the two mildest. */
  lemma TierFollowsCategory(aqi: int)
    ensures RecommendationTier(aqi) == Avoid <==>
      AqiCard.Classify(aqi) in {AqiCard.Unhealthy, AqiCard.VeryUnhealthy, AqiCard.Hazardous}
    ensures RecommendationTier(aqi) == Limit <==> AqiCard.Classify(aqi) == AqiCard.UnhealthyForSensitive
    ensures RecommendationTier(aqi) == Safe <==> AqiCard.Classify(aqi) in {AqiCard.Good, AqiCard.Moderate}
  {
  }

  /** One entry of the location table (`status` is never read and is left out). */
  datatype Location = Location(id: int, name: string, lat: real, lng: real, aqi: int)

  /** The page's fixed table (lines 8-17). */
  const Locations: seq<Location> := [
    Location(1, "Bengaluru Central", 12.9716, 77.5946, 125),
    Location(2, "Whitefield", 12.9698, 77.7500, 168),
    Location(3, "Electronic City", 12.8456, 77.6603, 95),
    Location(4, "Koramangala", 12.9352, 77.6245, 142),
    Location(5, "Indiranagar", 12.9784, 77.6408, 88),
    Location(6, "Jayanagar", 12.9250, 77.5838, 110),
    Location(7, "Marathahalli", 12.9591, 77.7010, 155),
    Location(8, "HSR Layout", 12.9116, 77.6473, 78)
  ]

  /** `locations.find(loc => loc.id === selectedLocation)` (line 48): the
      first entry with the selected id; nothing when no location is selected
      or none has that id. */
  function Find(table: seq<Location>, selected: Option<int>): (r: Option<Location>)
    ensures r.Some? ==> selected.Some? && r.value in table && r.value.id == selected.value
    ensures r.None? <==> selected.None? || forall i :: 0 <= i < |table| ==> table[i].id != selected.value
    decreases |table|
  {
    if selected.None? || |table| == 0 then None
    else if table[0].id == selected.value then Some(table[0])
    else
      var rest := Find(table[1..], selected);
      assert forall i :: 1 <= i < |table| ==> table[i] == table[1..][i - 1];
      rest
  }

  /** The ids of the table are 1 to 8, each once, so a selected id finds
      exactly the one location that has it. */
  lemma FindIsUnique(selected: int)
    ensures Find(Locations, Some(selected)).Some? <==> 1 <= selected <= 8
    ensures Find(Locations, Some(selected)).Some? ==>
      forall i :: 0 <= i < |Locations| && Locations[i].id == selected ==> Find(Locations, Some(selected)).value == Locations[i]
  {
    assert forall i :: 0 <= i < |Locations| ==> Locations[i].id == i + 1;
  }
}

=== FILE: numerics.dfy ===
/** The arithmetic the forecasters share: JavaScript's `Math.round`, the
    `Math.max(lo, Math.min(hi, x))` clamp, left-to-right sums
    (`reduce((a, b) => a + b, 0)`), means, the population variance, and an
    abstract square root. Numbers are exact reals; IEEE rounding is not
    modelled. */
module Numerics {

  function Min(a: int, b: int): int { if a <= b then a else b }

  function Max(a: int, b: int): int { if a >= b then a else b }

  /** `Math.round`: the nearest integer, halves rounded towards +infinity. */
  function Round(x: real): (n: int)
    ensures x - 0.5 < n as real <= x + 0.5
  {
    (x + 0.5).Floor
  }

  /** `Math.max(lo, Math.min(hi, x))`. */
  function Clamp(x: int, lo: int, hi: int): (r: int)
    requires lo <= hi
    ensures lo <= r <= hi
    ensures lo <= x <= hi ==> r == x
    ensures x < lo ==> r == lo
    ensures hi < x ==> r == hi
  {
    Max(lo, Min(hi, x))
  }

  /** Rounding a whole number gives it back. */
  lemma RoundWhole(n: int)
    ensures Round(n as real) == n
  {
  }

  /** A value between two whole numbers rounds to a whole number between them. */
  lemma RoundBetween(x: real, lo: int, hi: int)
    requires lo as real <= x <= hi as real
    ensures lo <= Round(x) <= hi
  {
  }

  /** The sum of a sequence, accumulated left to right as `reduce` does. */
  function Sum(s: seq<real>): real
    decreases |s|
  {
    if |s| == 0 then 0.0 else Sum(s[..|s| - 1]) + s[|s| - 1]
  }

  /** The mean as the source writes it: the sum divided by `Math.max(1, n)`,
      so that an empty sequence has mean 0. */
  function Mean(s: seq<real>): real
  {
    Sum(s) / Max(1, |s|) as real
  }

  /** The sum of squared deviations from `m`. */
  function SquaredDeviations(s: seq<real>, m: real): real
    decreases |s|
  {
    if |s| == 0 then 0.0
    else SquaredDeviations(s[..|s| - 1], m) + (s[|s| - 1] - m) * (s[|s| - 1] - m)
  }

  /** The population variance: squared deviations from the mean over
      `Math.max(1, n)`. */
  function Variance(s: seq<real>): real
  {
    SquaredDeviations(s, Mean(s)) / Max(1, |s|) as real
  }

  /** Reverses a most-recent-first series into chronological order
      (`[...series].reverse()`). */
  function Reverse(s: seq<real>): (r: seq<real>)
    ensures |r| == |s|
    ensures forall i :: 0 <= i < |s| ==> r[i] == s[|s| - 1 - i]
  {
    seq(|s|, i requires 0 <= i < |s| => s[|s| - 1 - i])
  }

  /** What the model assumes of `Math.sqrt`: the root of zero is zero and
      no root of a non-negative number is negative. */
  ghost predicate IsSqrt(sqrt: real -> real)
  {
    && sqrt(0.0) == 0.0
    && forall x :: 0.0 <= x ==> 0.0 <= sqrt(x)
  }

  /** Every element equal to `c`. */
  ghost predicate AllEqual(s: seq<real>, c: real)
  {
    forall i :: 0 <= i < |s| ==> s[i] == c
  }

  /** The sum of `n` copies of `c` is `n * c`. */
  lemma {:induction false} SumOfConstant(s: seq<real>, c: real)
    requires AllEqual(s, c)
    ensures Sum(s) == |s| as real * c
  {
    if |s| > 0 {
      SumOfConstant(s[..|s| - 1], c);
    }
  }

  /** The mean of a non-empty constant sequence is that constant. */
  lemma MeanOfConstant(s: seq<real>, c: real)
    requires |s| > 0
    requires AllEqual(s, c)
    ensures Mean(s) == c
  {
    SumOfConstant(s, c);
  }

  /** Squared deviations are never negative. */
  lemma {:induction false} SquaredDeviationsNonNegative(s: seq<real>, m: real)
    ensures 0.0 <= SquaredDeviations(s, m)
  {
    if |s| > 0 {
      SquaredDeviationsNonNegative(s[..|s| - 1], m);
      var d := s[|s| - 1] - m;
      assert 0.0 <= d * d by {
        if d < 0.0 { assert d * d == (-d) * (-d); }
      }
    }
  }

  /** Squared deviations from the common value of a constant sequence vanish. */
  lemma {:induction false} SquaredDeviationsOfConstant(s: seq<real>, c: real)
    requires AllEqual(s, c)
    ensures SquaredDeviations(s, c) == 0.0
  {
    if |s| > 0 {
      SquaredDeviationsOfConstant(s[..|s| - 1], c);
    }
  }

  /** The variance is never negative. */
  lemma VarianceNonNegative(s: seq<real>)
    ensures 0.0 <= Variance(s)
  {
    SquaredDeviationsNonNegative(s, Mean(s));
  }

  /** A constant sequence has variance zero. */
  lemma VarianceOfConstant(s: seq<real>, c: real)
    requires AllEqual(s, c)
    ensures Variance(s) == 0.0
  {
    if |s| > 0 {
      MeanOfConstant(s, c);
    }
    SquaredDeviationsOfConstant(s, Mean(s));
  }
}

=== FILE: pollutant_card.dfy ===
/** client/src/components/PollutantCard.tsx: a pollutant's status and its
    gauge percentage, both from the ratio of its value to its safe limit.
    Safe limits are positive; the statements below are made without the
    division, as comparisons of the value with multiples of the limit. */
module PollutantCard {

  datatype Status = Good | Moderate | Poor | Severe

  /** The position of a status, from 0 (Good) to 3 (Severe). */
  function Rank(s: Status): (n: nat)
    ensures n < 4
  {
    match s
    case Good => 0
    case Moderate => 1
    case Poor => 2
    case Severe => 3
  }

  /** With a positive limit, comparing the ratio with `k` is comparing the
      value with `k` limits. */
  lemma RatioAtMost(value: real, safeLimit: real, k: real)
    requires safeLimit > 0.0
    ensures value / safeLimit <= k <==> value <= k * safeLimit
  {
    var ratio := value / safeLimit;
    assert value == ratio * safeLimit;
    if ratio <= k {
      assert ratio * safeLimit <= k * safeLimit;
    } else {
      assert ratio * safeLimit > k * safeLimit;
    }
  }

  /** `getPollutantStatus` (lines 15-21): Good up to half the limit,
      Moderate up to the limit, Poor up to one and a half limits, Severe
      beyond; every bound inclusive. */
  function StatusOf(value: real, safeLimit: real): (s: Status)
    requires safeLimit > 0.0
    ensures s == Good <==> value <= 0.5 * safeLimit
    ensures s == Moderate <==> 0.5 * safeLimit < value <= safeLimit
    ensures s == Poor <==> safeLimit < value <= 1.5 * safeLimit
    ensures s == Severe <==> 1.5 * safeLimit < value
  {
    var ratio := value / safeLimit;
    RatioAtMost(value, safeLimit, 0.5);
    RatioAtMost(value, safeLimit, 1.0);
    RatioAtMost(value, safeLimit, 1.5);
    if ratio <= 0.5 then Good
    else if ratio <= 1.0 then Moderate
    else if ratio <= 1.5 then Poor
    else Severe
  }

  /** For a fixed limit, a larger value never reads as a milder status. */
  lemma StatusMonotone(a: real, b: real, safeLimit: real)
    requires safeLimit > 0.0
    requires a <= b
    ensures Rank(StatusOf(a, safeLimit)) <= Rank(StatusOf(b, safeLimit))
  {
  }

  /** `Math.min((value / safeLimit) * 100, 100)` (line 25): the gauge fill.
      It never exceeds 100, is full exactly when the value reaches the
      limit, and below the limit is the value as a percentage of it. */
  function Percentage(value: real, safeLimit: real): (p: real)
    requires safeLimit > 0.0
    ensures p <= 100.0
    ensures p == 100.0 <==> value >= safeLimit
    ensures value <= safeLimit ==> p == 100.0 * value / safeLimit
  {
    var scaled := (value / safeLimit) * 100.0;
    RatioAtMost(value, safeLimit, 1.0);
    assert value / safeLimit == 1.0 <==> value == safeLimit by {
      assert value == (value / safeLimit) * safeLimit;
    }
    if scaled <= 100.0 then scaled else 100.0
  }

  /** Within the limit a pollutant is Good or Moderate and its gauge shows
      its exact share of the limit. */
  lemma WithinLimit(value: real, safeLimit: real)
    requires safeLimit > 0.0
    requires value <= safeLimit
    ensures StatusOf(value, safeLimit) == Good || StatusOf(value, safeLimit) == Moderate
    ensures Percentage(value, safeLimit) == 100.0 * value / safeLimit
  {
  }
}

=== FILE: prediction_service.dfy ===
/** server/services/predictionService.ts: Holt's linear (double
    exponential) smoothing over a most-recent-first series, and the
    `PredictionService` that turns it into hourly AQI and temperature
    forecasts (at most 72 hours, one confidence for the whole call) and
    aggregates the hourly AQI forecast into daily min/avg/max entries.
    The storage query that supplies the readings is a parameter (`recent`),
    and so is the clock (`now`, in milliseconds). */
module PredictionService {
  import opened Wrappers
  import opened Numerics
  import opened Readings

  /** The smoothing constants `alpha = 0.6` and `beta = 0.2`. */
  const Alpha: real := 0.6
  const Beta: real := 0.2

  /** No forecast runs further than 72 hours. */
  const MaxHorizon: int := 72

  /** One hour in milliseconds. */
  const HourMs: int := 60 * 60 * 1000

  /** Holt's state after some prefix of the data: level, trend and the
      one-step fitted values `level + trend` so far. */
  datatype HoltState = HoltState(level: real, trend: real, fitted: seq<real>)

  /** The result of `holtLinearForecast`; `None` stands for `null`. */
  datatype HoltResult = HoltResult(forecast: seq<Option<int>>, residualStd: real)

  /** The initial trend: the first difference, or 0 for a single point. */
  function InitialTrend(data: seq<real>): real
    requires |data| > 0
  {
    if |data| > 1 then data[1] - data[0] else 0.0
  }

  /** The smoothing loop (predictionService.ts lines 19-32) run over the
      first `k` chronological points. */
  function Smooth(data: seq<real>, alpha: real, beta: real, k: nat): (s: HoltState)
    requires 1 <= k <= |data|
    ensures |s.fitted| == k
    decreases k
  {
    if k == 1 then
      HoltState(data[0], InitialTrend(data), [data[0] + InitialTrend(data)])
    else
      var prev := Smooth(data, alpha, beta, k - 1);
      var level := alpha * data[k - 1] + (1.0 - alpha) * (prev.level + prev.trend);
      var trend := beta * (level - prev.level) + (1.0 - beta) * prev.trend;
      HoltState(level, trend, prev.fitted + [level + trend])
  }

  /** The forecast `h` steps past a smoothed state: `round(level + trend * h)`. */
  function Extrapolate(s: HoltState, h: nat): int
  {
    Round(s.level + s.trend * h as real)
  }

  /** `holtLinearForecast`. An empty series gives `horizon` nulls and a zero
      residual spread; otherwise forecast `h` (1-based) is the rounding of
      `level + trend * h` for the final smoothed state. */
  function HoltLinearForecast(series: seq<real>, horizon: nat, alpha: real, beta: real, sqrt: real -> real): (r: HoltResult)
    ensures |r.forecast| == horizon
    ensures |series| == 0 ==>
      r.residualStd == 0.0 && forall h :: 0 <= h < horizon ==> r.forecast[h] == None
    ensures |series| > 0 ==>
      var s := Smooth(Reverse(series), alpha, beta, |series|);
      forall h :: 0 <= h < horizon ==> r.forecast[h] == Some(Extrapolate(s, h + 1))
    ensures IsSqrt(sqrt) ==> 0.0 <= r.residualStd
  {
    if |series| == 0 then
      HoltResult(seq(horizon, _ => None), 0.0)
    else
      var data := Reverse(series);
      var s := Smooth(data, alpha, beta, |data|);
      var residuals := HoltResiduals(data, alpha, beta);
      VarianceNonNegative(residuals);
      HoltResult(seq(horizon, h requires 0 <= h < horizon => Some(Extrapolate(s, h + 1))),
                 sqrt(Variance(residuals)))
  }

  /** The one-step residuals `data[i] - fitted[i]` of a non-empty series. */
  function HoltResiduals(data: seq<real>, alpha: real, beta: real): (r: seq<real>)
    requires |data| > 0
    ensures |r| == |data|
  {
    var s := Smooth(data, alpha, beta, |data|);
    seq(|data|, i requires 0 <= i < |data| => data[i] - s.fitted[i])
  }

  /** A single reading has no trend: every forecast is that reading rounded,
      and the residual spread is zero. */
  lemma HoltSinglePointIsFlat(series: seq<real>, horizon: nat, alpha: real, beta: real, sqrt: real -> real)
    requires |series| == 1
    requires IsSqrt(sqrt)
    ensures var r := HoltLinearForecast(series, horizon, alpha, beta, sqrt);
      && r.residualStd == 0.0
      && forall h :: 0 <= h < horizon ==> r.forecast[h] == Some(Round(series[0]))
  {
    var data := Reverse(series);
    VarianceOfConstant(HoltResiduals(data, alpha, beta), 0.0);
  }

  /** Chronological data lying on the line `a + b * t`. */
  ghost predicate OnLine(data: seq<real>, a: real, b: real)
  {
    forall t :: 0 <= t < |data| ==> data[t] == a + b * t as real
  }

  /** Blending a value with itself, in any proportion, gives it back. */
  lemma BlendSame(w: real, x: real, y: real)
    requires x == y
    ensures w * x + (1.0 - w) * y == x
  {
  }

  /** One step along the line `a + b * t`. */
  lemma NextOnLine(a: real, b: real, t: nat)
    ensures a + b * (t + 1) as real == (a + b * t as real) + b
  {
    var x := t as real;
    assert (t + 1) as real == x + 1.0;
    assert b * (x + 1.0) == b * x + b;
  }

  /** The linear-trend facts the smoother keeps after `k` points. */
  ghost predicate TracksLine(data: seq<real>, a: real, b: real, s: HoltState, k: nat)
    requires k <= |data| && |s.fitted| == k
  {
    && s.level == a + b * (k - 1) as real
    && s.trend == b
    && forall i :: 0 <= i < k ==> s.fitted[i] == data[i] + b
  }

  /** The first point starts the smoother on the line. */
  lemma SmoothStartsOnLine(data: seq<real>, a: real, b: real, alpha: real, beta: real)
    requires 2 <= |data|
    requires OnLine(data, a, b)
    ensures TracksLine(data, a, b, Smooth(data, alpha, beta, 1), 1)
  {
    assert data[0] == a + b * 0 as real;
    assert data[1] == a + b * 1 as real;
  }

  /** Each further point on the line keeps the smoother on it. */
  lemma SmoothStaysOnLine(data: seq<real>, a: real, b: real, alpha: real, beta: real, k: nat)
    requires 2 <= k <= |data|
    requires OnLine(data, a, b)
    requires TracksLine(data, a, b, Smooth(data, alpha, beta, k - 1), k - 1)
    ensures TracksLine(data, a, b, Smooth(data, alpha, beta, k), k)
  {
    var prev := Smooth(data, alpha, beta, k - 1);
    var x := a + b * (k - 1) as real;
    NextOnLine(a, b, k - 2);
    assert data[k - 1] == x;
    BlendSame(alpha, data[k - 1], prev.level + prev.trend);
    var level := alpha * data[k - 1] + (1.0 - alpha) * (prev.level + prev.trend);
    BlendSame(beta, level - prev.level, prev.trend);
  }

  /** On data lying on a line, the smoother's level is the line itself, its
      trend is the slope, and every fitted value overshoots by one slope. */
  lemma {:induction false} SmoothFollowsLine(data: seq<real>, a: real, b: real, alpha: real, beta: real, k: nat)
    requires 2 <= |data|
    requires 1 <= k <= |data|
    requires OnLine(data, a, b)
    ensures TracksLine(data, a, b, Smooth(data, alpha, beta, k), k)
    decreases k
  {
    if k == 1 {
      SmoothStartsOnLine(data, a, b, alpha, beta);
    } else {
      SmoothFollowsLine(data, a, b, alpha, beta, k - 1);
      SmoothStaysOnLine(data, a, b, alpha, beta, k);
    }
  }

  /** `h + 1` steps past point `n - 1` of the line is point `n + h`. */
  lemma LineAhead(a: real, b: real, n: nat, h: nat)
    requires n >= 1
    ensures (a + b * (n - 1) as real) + b * (h + 1) as real == a + b * (n + h) as real
  {
    var x := (n - 1) as real;
    var y := (h + 1) as real;
    assert (n + h) as real == x + y;
    assert b * (x + y) == b * x + b * y;
  }

  /** Holt's method is exact on a linear trend: for a series of at least two
      points lying on `a + b * t` (oldest first), forecast `h` is the line
      continued `h` steps past the last point, and the residual spread is
      zero. A constant series is the case `b == 0`. */
  lemma HoltExtendsLinearTrend(series: seq<real>, a: real, b: real, horizon: nat, alpha: real, beta: real, sqrt: real -> real)
    requires |series| >= 2
    requires OnLine(Reverse(series), a, b)
    requires IsSqrt(sqrt)
    ensures var r := HoltLinearForecast(series, horizon, alpha, beta, sqrt);
      && r.residualStd == 0.0
      && forall h :: 0 <= h < horizon ==> r.forecast[h] == Some(Round(a + b * (|series| + h) as real))
  {
    var data := Reverse(series);
    SmoothFollowsLine(data, a, b, alpha, beta, |data|);
    var s := Smooth(data, alpha, beta, |data|);
    var r := HoltLinearForecast(series, horizon, alpha, beta, sqrt);
    forall h | 0 <= h < horizon
      ensures r.forecast[h] == Some(Round(a + b * (|series| + h) as real))
    {
      LineAhead(a, b, |series|, h);
      assert s.level + s.trend * (h + 1) as real == a + b * (|series| + h) as real;
      assert Extrapolate(s, h + 1) == Round(a + b * (|series| + h) as real);
      assert r.forecast[h] == Some(Extrapolate(s, h + 1));
    }
    var residuals := HoltResiduals(data, alpha, beta);
    assert AllEqual(residuals, -b);
    VarianceOfConstant(residuals, -b);
  }

  /** One forecast point: its time in milliseconds, value and confidence. */
  datatype HourlyPrediction = HourlyPrediction(time: int, predicted: int, confidence: int)

  /** `Math.min(hours, 72)` as a forecast length: a negative request makes
      the forecast loop run zero times. */
  function Horizon(hours: int): (h: nat)
    ensures h <= MaxHorizon
  {
    Max(0, Min(hours, MaxHorizon))
  }

  /** The per-call confidence `clamp(round(90 - residualStd * factor), 30, 95)`. */
  function Confidence(residualStd: real, factor: real): (c: int)
    ensures 30 <= c <= 95
  {
    Clamp(Round(90.0 - residualStd * factor), 30, 95)
  }

  /** The forecast as response points: point `i` is stamped `i + 1` hours
      after `now` and every point carries the same confidence. */
  function ToPoints(forecast: seq<Option<int>>, confidence: int, now: int): (points: seq<HourlyPrediction>)
    requires forall i :: 0 <= i < |forecast| ==> forecast[i].Some?
    ensures |points| == |forecast|
  {
    seq(|forecast|, i requires 0 <= i < |forecast| =>
      HourlyPrediction(now + (i + 1) * HourMs, forecast[i].value, confidence))
  }

  /** The AQI series of the stored readings, most recent first. */
  function AqiSeries(recent: seq<StoredReading>): (s: seq<real>)
    ensures |s| == |recent|
  {
    seq(|recent|, i requires 0 <= i < |recent| => recent[i].row.aqi as real)
  }

  /** `predictAQIHourly`: no readings, no forecast; otherwise exactly
      `min(hours, 72)` points (none for a negative request), point `i`
      stamped `now + (i + 1)` hours, all with one confidence in [30, 95]
      derived from Holt's residual spread with factor 3. */
  function PredictAQIHourly(recent: seq<StoredReading>, hours: int, now: int, sqrt: real -> real): (points: seq<HourlyPrediction>)
    ensures |recent| == 0 ==> points == []
    ensures |recent| > 0 && 0 <= hours ==> |points| == Min(hours, MaxHorizon)
    ensures hours <= 0 ==> points == []
    ensures |points| <= MaxHorizon
    ensures forall i :: 0 <= i < |points| ==> points[i].time == now + (i + 1) * HourMs
    ensures forall i :: 0 <= i < |points| ==> points[i].confidence == points[0].confidence
    ensures |recent| > 0 ==>
      var r := HoltLinearForecast(AqiSeries(recent), Horizon(hours), Alpha, Beta, sqrt);
      forall i :: 0 <= i < |points| ==>
        && r.forecast[i] == Some(points[i].predicted)
        && points[i].confidence == Clamp(Round(90.0 - r.residualStd * 3.0), 30, 95)
  {
    if |recent| == 0 then []
    else
      var r := HoltLinearForecast(AqiSeries(recent), Horizon(hours), Alpha, Beta, sqrt);
      ToPoints(r.forecast, Confidence(r.residualStd, 3.0), now)
  }

  /** The temperature series: a reading's temperature when it has one, and
      the proxy `aqi / 10 + 15` exactly when it is null or undefined. */
  function TemperatureSeries(recent: seq<StoredReading>): (s: seq<real>)
    ensures |s| == |recent|
    ensures forall i :: 0 <= i < |recent| && recent[i].row.temperature.None? ==>
      s[i] == recent[i].row.aqi as real / 10.0 + 15.0
    ensures forall i :: 0 <= i < |recent| && recent[i].row.temperature.Some? ==>
      s[i] == recent[i].row.temperature.value
  {
    seq(|recent|, i requires 0 <= i < |recent| =>
      match recent[i].row.temperature
      case Some(t) => t
      case None => recent[i].row.aqi as real / 10.0 + 15.0)
  }

  /** `predictTemperatureHourly`: like the AQI forecast over the temperature
      series, with confidence factor 2 and the same [30, 95] clamp. */
  function PredictTemperatureHourly(recent: seq<StoredReading>, hours: int, now: int, sqrt: real -> real): (points: seq<HourlyPrediction>)
    ensures |recent| == 0 ==> points == []
    ensures |recent| > 0 && 0 <= hours ==> |points| == Min(hours, MaxHorizon)
    ensures hours <= 0 ==> points == []
    ensures forall i :: 0 <= i < |points| ==> points[i].time == now + (i + 1) * HourMs
    ensures forall i :: 0 <= i < |points| ==> points[i].confidence == points[0].confidence
    ensures |recent| > 0 ==>
      var r := HoltLinearForecast(TemperatureSeries(recent), Horizon(hours), Alpha, Beta, sqrt);
      forall i :: 0 <= i < |points| ==>
        && r.forecast[i] == Some(points[i].predicted)
        && points[i].confidence == Clamp(Round(90.0 - r.residualStd * 2.0), 30, 95)
  {
    if |recent| == 0 then []
    else
      var r := HoltLinearForecast(TemperatureSeries(recent), Horizon(hours), Alpha, Beta, sqrt);
      ToPoints(r.forecast, Confidence(r.residualStd, 2.0), now)
  }

  /** One daily entry; `day` is the offset from today (the weekday name is
      presentation and not modelled). */
  datatype DailyForecast = DailyForecast(day: nat, min: int, avg: int, max: int, predicted: int)

  function SeqMin(s: seq<int>): (m: int)
    requires |s| > 0
    ensures m in s && forall i :: 0 <= i < |s| ==> m <= s[i]
  {
    if |s| == 1 then s[0] else var m := SeqMin(s[1..]); if s[0] <= m then s[0] else m
  }

  function SeqMax(s: seq<int>): (m: int)
    requires |s| > 0
    ensures m in s && forall i :: 0 <= i < |s| ==> s[i] <= m
  {
    if |s| == 1 then s[0] else var m := SeqMax(s[1..]); if s[0] >= m then s[0] else m
  }

  function SumInts(s: seq<int>): int
  {
    if |s| == 0 then 0 else SumInts(s[..|s| - 1]) + s[|s| - 1]
  }

  /** The sum of a sequence lies between `n` times its minimum and `n` times
      its maximum. */
  lemma {:induction false} SumIntsBetween(s: seq<int>, lo: int, hi: int)
    requires forall i :: 0 <= i < |s| ==> lo <= s[i] <= hi
    ensures |s| * lo <= SumInts(s) <= |s| * hi
  {
    if |s| > 0 {
      var n := |s|;
      SumIntsBetween(s[..n - 1], lo, hi);
      assert n * lo == (n - 1) * lo + lo;
      assert n * hi == (n - 1) * hi + hi;
    }
  }

  /** Hours `24 d .. 24 d + 23` of the hourly values, cut short at the end as
      `Array.prototype.slice` does. */
  function DaySlice(values: seq<int>, d: nat): (slice: seq<int>)
    ensures |slice| > 0 <==> 24 * d < |values|
  {
    values[Min(24 * d, |values|)..Min(24 * d + 24, |values|)]
  }

  /** A quotient of bounded totals is bounded: `n * lo <= sum <= n * hi`
      gives `lo <= sum / n <= hi`. */
  lemma QuotientBetween(sum: int, n: int, lo: int, hi: int)
    requires 0 < n
    requires n * lo <= sum <= n * hi
    ensures lo as real <= sum as real / n as real <= hi as real
  {
    var q := sum as real / n as real;
    assert q * n as real == sum as real;
    assert (n * lo) as real == n as real * lo as real;
    assert (n * hi) as real == n as real * hi as real;
    assert lo as real * n as real <= q * n as real <= hi as real * n as real;
  }

  /** The rounded mean of a non-empty slice lies between its extremes. */
  lemma RoundedMeanBetween(slice: seq<int>)
    requires |slice| > 0
    ensures SeqMin(slice) <= Round(SumInts(slice) as real / |slice| as real) <= SeqMax(slice)
  {
    SumIntsBetween(slice, SeqMin(slice), SeqMax(slice));
    QuotientBetween(SumInts(slice), |slice|, SeqMin(slice), SeqMax(slice));
    RoundBetween(SumInts(slice) as real / |slice| as real, SeqMin(slice), SeqMax(slice));
  }

  /** The daily entry of a non-empty slice (lines 91-95): its minimum, its
      rounded average, its maximum, and `predicted` equal to the average;
      the average lies between the minimum and the maximum. */
  function Summarize(slice: seq<int>, day: nat): (e: DailyForecast)
    requires |slice| > 0
    ensures e.day == day
    ensures e.min in slice && e.max in slice
    ensures forall i :: 0 <= i < |slice| ==> e.min <= slice[i] <= e.max
    ensures e.min <= e.avg <= e.max
    ensures e.predicted == e.avg
    ensures RoundsToAverage(slice, e.avg)
  {
    var avg := Round(SumInts(slice) as real / |slice| as real);
    RoundedMeanBetween(slice);
    RoundWhole(avg);
    DailyForecast(day, SeqMin(slice), avg, SeqMax(slice), Round(avg as real))
  }

  /** `avg` is `Math.round` of the slice's arithmetic mean. */
  ghost predicate RoundsToAverage(slice: seq<int>, avg: int)
    requires |slice| > 0
  {
    var mean := SumInts(slice) as real / |slice| as real;
    mean - 0.5 < avg as real <= mean + 0.5
  }

  /** Days needed to cover `n` hourly values. */
  function DaysCovering(n: nat): nat
  {
    (n + 23) / 24
  }

  /** `e` summarises the non-empty slice of day `day`. */
  ghost predicate SummarisesDay(values: seq<int>, day: nat, e: DailyForecast)
  {
    |DaySlice(values, day)| > 0 && e == Summarize(DaySlice(values, day), day)
  }

  /** Entry `k` of `daily` summarises the non-empty slice of day `d + k`. */
  ghost predicate SummarisesDaysFrom(values: seq<int>, d: nat, daily: seq<DailyForecast>)
  {
    forall k :: 0 <= k < |daily| ==> SummarisesDay(values, d + k, daily[k])
  }

  /** Day `d` has hours in the forecast exactly when it is one of the
      `DaysCovering(n)` first days. */
  lemma CoveredDays(n: nat, d: nat)
    ensures 24 * d < n <==> d < DaysCovering(n)
  {
    var q := (n + 23) / 24;
    assert n + 23 == 24 * q + (n + 23) % 24;
  }

  /** Prepending the summary of day `d` to summaries from day `d + 1` gives
      summaries from day `d`. */
  lemma SummarisesCons(values: seq<int>, d: nat, e: DailyForecast, rest: seq<DailyForecast>)
    requires SummarisesDay(values, d, e)
    requires SummarisesDaysFrom(values, d + 1, rest)
    ensures SummarisesDaysFrom(values, d, [e] + rest)
  {
    var daily := [e] + rest;
    forall k | 0 <= k < |daily|
      ensures SummarisesDay(values, d + k, daily[k])
    {
      if k > 0 {
        assert daily[k] == rest[k - 1];
        assert SummarisesDay(values, d + 1 + (k - 1), rest[k - 1]);
      }
    }
  }

  /** The loop over days `d .. days - 1` (lines 87-96): one entry per
      non-empty slice. The non-empty slices are the first
      `ceil(n / 24)` days, so entry `k` is day `d + k`. */
  function Aggregate(values: seq<int>, days: int, d: nat): (daily: seq<DailyForecast>)
    ensures |daily| == Max(0, Min(days, DaysCovering(|values|)) - d)
    ensures SummarisesDaysFrom(values, d, daily)
    decreases Max(0, days - d)
  {
    if days <= d then []
    else
      var slice := DaySlice(values, d);
      CoveredDays(|values|, d);
      if |slice| == 0 then
        Aggregate(values, days, d + 1)
      else
        var rest := Aggregate(values, days, d + 1);
        SummarisesCons(values, d, Summarize(slice, d), rest);
        [Summarize(slice, d)] + rest
  }

  /** `predictAQIWeekly`: the hourly forecast for `days * 24` hours,
      aggregated per day. Since the hourly forecast stops at 72 hours there
      are never more than 3 entries, whatever `days` asks for; every entry
      has `min <= avg <= max` and `predicted == avg`. */
  function PredictAQIWeekly(recent: seq<StoredReading>, days: int, now: int, sqrt: real -> real): (daily: seq<DailyForecast>)
    ensures |daily| <= Max(0, Min(days, 3))
    ensures |recent| > 0 ==> |daily| == Max(0, Min(days, 3))
    ensures |recent| == 0 ==> daily == []
    ensures forall k :: 0 <= k < |daily| ==>
      && daily[k].day == k
      && daily[k].min <= daily[k].avg <= daily[k].max
      && daily[k].predicted == daily[k].avg
    ensures SummarisesDaysFrom(HourlyValues(PredictAQIHourly(recent, days * 24, now, sqrt)), 0, daily)
  {
    var hourly := PredictAQIHourly(recent, days * 24, now, sqrt);
    if |hourly| == 0 then []
    else Aggregate(HourlyValues(hourly), days, 0)
  }

  /** The predicted values of an hourly forecast, hour by hour (line 88). */
  function HourlyValues(hourly: seq<HourlyPrediction>): (values: seq<int>)
    ensures |values| == |hourly|
    ensures forall i :: 0 <= i < |hourly| ==> values[i] == hourly[i].predicted
  {
    seq(|hourly|, i requires 0 <= i < |hourly| => hourly[i].predicted)
  }
}

=== FILE: readings.dfy ===
/** The reading records that flow from the air-quality provider into
    storage. A provider reading may leave its weather fields `undefined`
    or set them to `null`; the stored row only knows "null" (`None`). */
module Readings {
  import opened Wrappers

  /** A provider field that may be `undefined`, `null` or a number. */
  datatype Nullable = Undefined | Null | Value(v: real)

  /** One reading as the provider returns it (`getAQIData`). */
  datatype ProviderReading = ProviderReading(
    location: string,
    aqi: int,
    pm25: real, pm10: real, co: real, o3: real, no2: real, so2: real,
    temperature: Nullable,
    humidity: Nullable,
    windSpeed: Nullable,
    source: string)

  /** The row handed to `storage.createAQIReading`. */
  datatype AQIInsert = AQIInsert(
    location: string,
    aqi: int,
    pm25: real, pm10: real, co: real, o3: real, no2: real, so2: real,
    temperature: Option<real>,
    humidity: Option<real>,
    windSpeed: Option<real>,
    source: string)

  /** A stored reading: the inserted row plus the id and timestamp the
      store assigns. */
  datatype StoredReading = StoredReading(id: string, timestamp: int, row: AQIInsert)

  /** `x ?? null`: a number stays, `undefined` and `null` both become null. */
  function OrNull(x: Nullable): (r: Option<real>)
    ensures r.None? <==> (x.Undefined? || x.Null?)
    ensures r.Some? ==> x == Value(r.value)
  {
    match x
    case Value(v) => Some(v)
    case _ => None
  }

  /** The insert row built from a provider reading (dataCollector.ts lines
      52-65 and 81-94): every field is copied, and an absent temperature,
      humidity or wind speed is stored as null. */
  function ToInsert(d: ProviderReading): (r: AQIInsert)
    ensures r.location == d.location && r.aqi == d.aqi && r.source == d.source
    ensures r.pm25 == d.pm25 && r.pm10 == d.pm10 && r.co == d.co
    ensures r.o3 == d.o3 && r.no2 == d.no2 && r.so2 == d.so2
    ensures r.temperature.None? <==> (d.temperature.Undefined? || d.temperature.Null?)
    ensures r.humidity.None? <==> (d.humidity.Undefined? || d.humidity.Null?)
    ensures r.windSpeed.None? <==> (d.windSpeed.Undefined? || d.windSpeed.Null?)
    ensures r.temperature.Some? ==> d.temperature == Value(r.temperature.value)
    ensures r.humidity.Some? ==> d.humidity == Value(r.humidity.value)
    ensures r.windSpeed.Some? ==> d.windSpeed == Value(r.windSpeed.value)
  {
    AQIInsert(d.location, d.aqi, d.pm25, d.pm10, d.co, d.o3, d.no2, d.so2,
              OrNull(d.temperature), OrNull(d.humidity), OrNull(d.windSpeed), d.source)
  }
}

=== FILE: route_rules.dfy ===
/** The request rules of server/routes.ts that decide what an endpoint
    answers: default locations, the timeframe-to-hours mapping and the
    72-hour cap of the prediction endpoints, the multi-city validation, the
    cached fallback of `/api/aqi`, the `/api/export` record shaping, and the
    chat context lookup. Each endpoint is a pure function from its request
    fields and the storage and provider answers (parameters) to a response
    datatype whose constructors are the status codes the handler can send.

    A query or body field that may be absent is an `Option`; a JavaScript
    falsy string (`""`) is distinguished where the source tests truthiness
    with `||` or `?:` and not where it uses a default parameter. */
module RouteRules {
  import opened Wrappers
  import opened Numerics
  import opened Readings
  import PredictionService

  /** The provider: a live reading for a location, or the error it throws. */
  type Fetch = string -> Result<ProviderReading, string>

  /** `storage.getLatestAQIReading`: the newest stored reading, none, or a throw. */
  type Latest = string -> Result<Option<StoredReading>, string>

  /** `storage.getAQIReadings(location, limit)` with the service's limit. */
  type Recent = string -> Result<seq<StoredReading>, string>

  /** `storage.getAQIReadingsByTimeRange(location, start, end)`, times in ms. */
  type RangeQuery = (string, int, int) -> Result<seq<StoredReading>, string>

  /** A field present with a non-empty string value, the truthy case of `x || d`. */
  predicate Truthy(x: Option<string>)
  {
    x.Some? && x.value != ""
  }

  /** `x || d`, for a string field. */
  function OrDefault(x: Option<string>, d: string): (r: string)
    ensures Truthy(x) ==> r == x.value
    ensures !Truthy(x) ==> r == d
  {
    if Truthy(x) then x.value else d
  }

  // ---------------------------------------------------------------------
  // Timeframes

  /** `timeframe === '7d' ? 168 : timeframe === '30d' ? 720 : 24` (lines 249,
      333, 367, 472). Any other value, `'24h'` and an absent one included,
      means one day. */
  function TimeframeHours(timeframe: Option<string>): (hours: nat)
    ensures hours == 168 <==> timeframe == Some("7d")
    ensures hours == 720 <==> timeframe == Some("30d")
    ensures hours == 24 <==> timeframe != Some("7d") && timeframe != Some("30d")
  {
    if timeframe == Some("7d") then 168
    else if timeframe == Some("30d") then 720
    else 24
  }

  /** `Math.min(hours, 72)` as the prediction endpoints pass it (lines 370,
      484): three days for a week or a month, one day otherwise. */
  function PredictionHours(timeframe: Option<string>): (hours: nat)
    ensures hours <= PredictionService.MaxHorizon
    ensures hours == 72 <==> timeframe == Some("7d") || timeframe == Some("30d")
    ensures hours == 24 <==> timeframe != Some("7d") && timeframe != Some("30d")
  {
    Min(TimeframeHours(timeframe), PredictionService.MaxHorizon)
  }

  // ---------------------------------------------------------------------
  // Trend endpoints

  /** A trend endpoint's answer: the points, 503 when storage has no
      readings in the window, or 500 when storage throws. */
  datatype TrendResponse<T> = Trend(points: seq<T>) | NoData | TrendError

  /** One weather trend point; a missing value is reported as 0. */
  datatype WeatherPoint = WeatherPoint(temperature: real, humidity: real, windSpeed: real)

  /** `value ?? 0`. */
  function OrZero(x: Option<real>): (r: real)
    ensures x.Some? ==> r == x.value
    ensures x.None? ==> r == 0.0
  {
    if x.Some? then x.value else 0.0
  }

  /** `/api/aqi/:location/trend` (lines 244-279): the readings of the last
      `TimeframeHours` hours before `now`, one AQI value per reading in the
      order storage returns them; an empty window is a 503. */
  function AqiTrend(location: string, timeframe: Option<string>, now: int, range: RangeQuery): (r: TrendResponse<int>)
    ensures var q := range(location, now - TimeframeHours(timeframe) * PredictionService.HourMs, now);
      && (r.TrendError? <==> q.Err?)
      && (r.NoData? <==> q.Ok? && |q.value| == 0)
      && (r.Trend? ==> |r.points| == |q.value| > 0
                       && forall i :: 0 <= i < |r.points| ==> r.points[i] == q.value[i].row.aqi)
  {
    var start := now - TimeframeHours(timeframe) * PredictionService.HourMs;
    match range(location, start, now)
    case Err(_) => TrendError
    case Ok(readings) =>
      if |readings| == 0 then NoData
      else Trend(seq(|readings|, i requires 0 <= i < |readings| => readings[i].row.aqi))
  }

  /** `/api/weather/trend` (lines 330-360): like the AQI trend, with the
      weather fields of each reading and 0 for any that is null. */
  function WeatherTrend(location: string, timeframe: Option<string>, now: int, range: RangeQuery): (r: TrendResponse<WeatherPoint>)
    ensures var q := range(location, now - TimeframeHours(timeframe) * PredictionService.HourMs, now);
      && (r.TrendError? <==> q.Err?)
      && (r.NoData? <==> q.Ok? && |q.value| == 0)
      && (r.Trend? ==> |r.points| == |q.value| > 0
                       && forall i :: 0 <= i < |r.points| ==>
                            r.points[i] == WeatherPoint(OrZero(q.value[i].row.temperature),
                                                        OrZero(q.value[i].row.humidity),
                                                        OrZero(q.value[i].row.windSpeed)))
  {
    var start := now - TimeframeHours(timeframe) * PredictionService.HourMs;
    match range(location, start, now)
    case Err(_) => TrendError
    case Ok(readings) =>
      if |readings| == 0 then NoData
      else Trend(seq(|readings|, i requires 0 <= i < |readings| =>
        WeatherPoint(OrZero(readings[i].row.temperature), OrZero(readings[i].row.humidity),
                     OrZero(readings[i].row.windSpeed))))
  }

  // ---------------------------------------------------------------------
  // Prediction endpoints

  /** A prediction endpoint's answer: the forecast, 503 when there is no
      stored reading at all, 503 when the forecast came back empty, or 500
      when storage throws. */
  datatype PredictionResponse<T> = Predictions(points: seq<T>) | NoHistory | NoForecast | PredictionError

  /** `/api/ml/hourly` (lines 469-506). The location defaults to
      `'Bengaluru'`; the service forecasts `PredictionHours` hours from the
      location's recent readings. A non-empty answer therefore always holds
      exactly 24 or exactly 72 points. */
  function MlHourly(location: Option<string>, timeframe: Option<string>, latest: Latest, recent: Recent,
                    now: int, sqrt: real -> real): (r: PredictionResponse<PredictionService.HourlyPrediction>)
    ensures var loc := OrDefault(location, "Bengaluru");
      && (r.NoHistory? <==> latest(loc) == Ok(None))
      && (r.Predictions? ==> latest(loc).Ok? && latest(loc).value.Some?
                             && recent(loc).Ok? && |recent(loc).value| > 0)
      && (r.NoForecast? <==> latest(loc).Ok? && latest(loc).value.Some? && recent(loc) == Ok([]))
      && (r.PredictionError? <==> latest(loc).Err? || (latest(loc).Ok? && latest(loc).value.Some? && recent(loc).Err?))
      && (r.Predictions? ==> r.points == PredictionService.PredictAQIHourly(recent(loc).value, PredictionHours(timeframe), now, sqrt))
    ensures r.Predictions? ==> |r.points| == PredictionHours(timeframe)
    ensures r.Predictions? ==> |r.points| == 24 || |r.points| == 72
  {
    var loc := OrDefault(location, "Bengaluru");
    match latest(loc)
    case Err(_) => PredictionError
    case Ok(None) => NoHistory
    case Ok(Some(_)) =>
      match recent(loc)
      case Err(_) => PredictionError
      case Ok(readings) =>
        var preds := PredictionService.PredictAQIHourly(readings, PredictionHours(timeframe), now, sqrt);
        if |preds| == 0 then NoForecast else Predictions(preds)
  }

  /** `parseInt(String(req.query.days || '7'), 10) || 7` (line 512): `None`
      stands for an absent field or one that does not parse (`NaN`). An
      absent, unparsable or zero count means seven days; a negative count
      is passed on unchanged. */
  function RequestedDays(parsed: Option<int>): (days: int)
    ensures days != 0
    ensures parsed.Some? && parsed.value != 0 ==> days == parsed.value
    ensures parsed.None? || parsed == Some(0) ==> days == 7
  {
    if parsed.Some? && parsed.value != 0 then parsed.value else 7
  }

  /** `/api/ml/weekly` (lines 508-537). A non-empty answer holds between one
      and three days, one entry per day offset, each summarising that day of
      the hourly forecast; a negative day count yields no forecast, hence a
      503. */
  function MlWeekly(location: Option<string>, parsedDays: Option<int>, latest: Latest, recent: Recent,
                    now: int, sqrt: real -> real): (r: PredictionResponse<PredictionService.DailyForecast>)
    ensures var loc := OrDefault(location, "Bengaluru");
      && (r.NoHistory? <==> latest(loc) == Ok(None))
      && (r.PredictionError? <==> latest(loc).Err? || (latest(loc).Ok? && latest(loc).value.Some? && recent(loc).Err?))
      && (r.NoForecast? <==> latest(loc).Ok? && latest(loc).value.Some? && recent(loc).Ok?
                             && (|recent(loc).value| == 0 || RequestedDays(parsedDays) < 0))
      && (r.Predictions? ==> recent(loc).Ok? && |recent(loc).value| > 0
                             && r.points == PredictionService.PredictAQIWeekly(recent(loc).value, RequestedDays(parsedDays), now, sqrt))
    ensures r.Predictions? ==> 1 <= |r.points| <= 3 && |r.points| == Min(RequestedDays(parsedDays), 3)
    ensures r.Predictions? ==> forall k :: 0 <= k < |r.points| ==> r.points[k].day == k
    ensures parsedDays.Some? && parsedDays.value < 0 ==> !r.Predictions?
  {
    var loc := OrDefault(location, "Bengaluru");
    match latest(loc)
    case Err(_) => PredictionError
    case Ok(None) => NoHistory
    case Ok(Some(_)) =>
      match recent(loc)
      case Err(_) => PredictionError
      case Ok(readings) =>
        var daily := PredictionService.PredictAQIWeekly(readings, RequestedDays(parsedDays), now, sqrt);
        if |daily| == 0 then NoForecast else Predictions(daily)
  }

  /** One mapped temperature forecast point. */
  datatype TemperaturePoint = TemperaturePoint(time: int, temperature: int, feelsLike: int, confidence: int)

  /** `/api/weather/predictions/:location` (lines 363-388): the temperature
      forecast for `PredictionHours` hours. `feelsLike` is
      `round((t + 2) * 10) / 10`, which for the whole-number forecast is
      `t + 2`. An empty forecast is answered as an empty list, not a 503. */
  function WeatherPredictions(location: Option<string>, timeframe: Option<string>, recent: Recent,
                              now: int, sqrt: real -> real): (r: Result<seq<TemperaturePoint>, string>)
    ensures var loc := OrDefault(location, "Bengaluru Central");
      && (r.Err? <==> recent(loc).Err?)
      && (r.Ok? ==> (|r.value| == 0 <==> |recent(loc).value| == 0))
      && (r.Ok? && |r.value| > 0 ==> |r.value| == PredictionHours(timeframe))
    ensures r.Ok? ==>
      var loc := OrDefault(location, "Bengaluru Central");
      var preds := PredictionService.PredictTemperatureHourly(recent(loc).value, PredictionHours(timeframe), now, sqrt);
      && |r.value| == |preds|
      && forall i :: 0 <= i < |preds| ==>
           && r.value[i].time == preds[i].time
           && r.value[i].temperature == preds[i].predicted
           && r.value[i].confidence == preds[i].confidence
    ensures r.Ok? ==> forall i :: 0 <= i < |r.value| ==> r.value[i].feelsLike == r.value[i].temperature + 2
  {
    var loc := OrDefault(location, "Bengaluru Central");
    match recent(loc)
    case Err(e) => Err(e)
    case Ok(readings) =>
      var preds := PredictionService.PredictTemperatureHourly(readings, PredictionHours(timeframe), now, sqrt);
      Ok(seq(|preds|, i requires 0 <= i < |preds| =>
        TemperaturePoint(preds[i].time, preds[i].predicted, FeelsLike(preds[i].predicted), preds[i].confidence)))
  }

  /** `Math.round((t + 2) * 10) / 10` for a whole number `t`. */
  function FeelsLike(t: int): (r: int)
    ensures r == t + 2
  {
    var tenths := Round(((t + 2) * 10) as real);
    RoundWhole((t + 2) * 10);
    tenths / 10
  }

  // ---------------------------------------------------------------------
  // Current AQI with cached fallback

  /** The answer of `/api/aqi/:location?`: the live reading, the last stored
      one, 503, or 500. */
  datatype AqiResponse = Live(live: ProviderReading) | Cached(cached: StoredReading) | Unavailable | AqiError

  /** `/api/aqi/:location?` (lines 173-226). The location defaults to
      `'Bengaluru Central'`. A live reading wins; when the provider throws,
      the last stored reading is served only if it came from `'openweather'`,
      and otherwise the answer is 503; a storage failure is a 500. */
  function CurrentAqi(location: Option<string>, fetch: Fetch, latest: Latest): (r: AqiResponse)
    ensures var loc := OrDefault(location, "Bengaluru Central");
      && (r.Live? <==> fetch(loc).Ok?)
      && (r.Live? ==> r.live == fetch(loc).value)
      && (r.Cached? <==> fetch(loc).Err? && latest(loc).Ok? && latest(loc).value.Some?
                         && latest(loc).value.value.row.source == "openweather")
      && (r.Cached? ==> r.cached == latest(loc).value.value)
      && (r.Unavailable? <==> fetch(loc).Err? && latest(loc).Ok?
                              && (latest(loc).value.None? || latest(loc).value.value.row.source != "openweather"))
      && (r.AqiError? <==> fetch(loc).Err? && latest(loc).Err?)
  {
    var loc := OrDefault(location, "Bengaluru Central");
    match fetch(loc)
    case Ok(data) => Live(data)
    case Err(_) =>
      match latest(loc)
      case Err(_) => AqiError
      case Ok(None) => Unavailable
      case Ok(Some(reading)) => if reading.row.source == "openweather" then Cached(reading) else Unavailable
  }

  /** A cached answer is never anything but an OpenWeather reading. */
  lemma CachedIsOpenWeather(location: Option<string>, fetch: Fetch, latest: Latest)
    ensures var r := CurrentAqi(location, fetch, latest);
      r.Cached? ==> r.cached.row.source == "openweather"
  {
  }

  // ---------------------------------------------------------------------
  // Multi-city comparison

  /** What the `cities` body field holds: nothing or a falsy value, some
      truthy non-array, or an array. */
  datatype CitiesField = NoCities | NotArray | CityList(cities: seq<string>)

  datatype CompareError = CitiesRequired | TooManyCities

  /** The validation of `/api/cities/compare` (lines 286-292): a list of one
      to ten cities passes, a missing, non-array or empty one is refused as
      required, a longer one as too many. Both refusals are 400s. */
  function ValidateCities(field: CitiesField): (r: Result<seq<string>, CompareError>)
    ensures r.Ok? <==> field.CityList? && 1 <= |field.cities| <= 10
    ensures r.Ok? ==> r.value == field.cities
    ensures r == Err(CitiesRequired) <==> field.NoCities? || field.NotArray? || field == CityList([])
    ensures r == Err(TooManyCities) <==> field.CityList? && |field.cities| > 10
  {
    match field
    case NoCities => Err(CitiesRequired)
    case NotArray => Err(CitiesRequired)
    case CityList(cities) =>
      if |cities| == 0 then Err(CitiesRequired)
      else if |cities| > 10 then Err(TooManyCities)
      else Ok(cities)
  }

  /** The answer of `/api/cities/compare`: the provider's readings with their
      count and the rows the store accepted, a 400, or a 500. */
  datatype CompareResponse =
    | Compared(data: seq<ProviderReading>, total: nat, stored: seq<AQIInsert>)
    | CompareRefused(reason: CompareError)
    | CompareFailed

  /** The rows the store accepts from a list of readings, in order; a
      refused row is skipped and the rest are still offered. */
  function StoreEach(data: seq<ProviderReading>, persist: AQIInsert -> Outcome<string>): (rows: seq<AQIInsert>)
    ensures |rows| <= |data|
    ensures forall row :: row in rows ==> exists i :: 0 <= i < |data| && row == ToInsert(data[i]) && persist(row).Pass?
    ensures forall i :: 0 <= i < |data| && persist(ToInsert(data[i])).Pass? ==> ToInsert(data[i]) in rows
    decreases |data|
  {
    if |data| == 0 then []
    else
      var rest := StoreEach(data[1..], persist);
      var row := ToInsert(data[0]);
      var mine := if persist(row).Pass? then [row] else [];
      assert forall i :: 1 <= i < |data| ==> data[i] == data[1..][i - 1];
      mine + rest
  }

  /** Storing the readings of two lists one after the other stores the
      accepted rows of the first, then those of the second. */
  lemma {:induction false} StoreEachAppend(a: seq<ProviderReading>, b: seq<ProviderReading>,
                                           persist: AQIInsert -> Outcome<string>)
    ensures StoreEach(a + b, persist) == StoreEach(a, persist) + StoreEach(b, persist)
    decreases |a|
  {
    if |a| == 0 {
      assert a + b == b;
    } else {
      assert (a + b)[1..] == a[1..] + b;
      StoreEachAppend(a[1..], b, persist);
    }
  }

  /** The loop of lines 297-316, one iteration at a time: offering reading
      `i` after the first `i` appends its row exactly when the store accepts
      it, so the stored rows are the accepted readings in order, one each. */
  lemma StoreEachStep(data: seq<ProviderReading>, i: nat, persist: AQIInsert -> Outcome<string>)
    requires i < |data|
    ensures StoreEach(data[..i + 1], persist) ==
      StoreEach(data[..i], persist) + (if persist(ToInsert(data[i])).Pass? then [ToInsert(data[i])] else [])
  {
    assert data[..i + 1] == data[..i] + [data[i]];
    StoreEachAppend(data[..i], [data[i]], persist);
  }

  /** `/api/cities/compare` (lines 282-327). A valid list is fetched in one
      provider call; every reading is answered, the ones the store refused
      included, and `total` is their count. */
  function CompareCities(field: CitiesField, fetchAll: seq<string> -> Result<seq<ProviderReading>, string>,
                         persist: AQIInsert -> Outcome<string>): (r: CompareResponse)
    ensures ValidateCities(field).Err? <==> r.CompareRefused?
    ensures r.CompareRefused? ==> r.reason == ValidateCities(field).error
    ensures r.CompareFailed? <==> ValidateCities(field).Ok? && fetchAll(ValidateCities(field).value).Err?
    ensures r.Compared? ==>
      && r.data == fetchAll(field.cities).value
      && r.total == |r.data|
      && |r.stored| <= r.total
      && (forall i :: 0 <= i < |r.data| && persist(ToInsert(r.data[i])).Pass? ==> ToInsert(r.data[i]) in r.stored)
      && (forall row :: row in r.stored ==> exists i :: 0 <= i < |r.data| && row == ToInsert(r.data[i]) && persist(row).Pass?)
      && r.stored == StoreEach(r.data, persist)
  {
    match ValidateCities(field)
    case Err(e) => CompareRefused(e)
    case Ok(cities) =>
      match fetchAll(cities)
      case Err(_) => CompareFailed
      case Ok(data) => Compared(data, |data|, StoreEach(data, persist))
  }

  // ---------------------------------------------------------------------
  // Export

  datatype DateRange = DateRange(from: int, to: int)

  /** Which groups of fields the caller wants. */
  datatype DataTypes = DataTypes(aqi: bool, pollutants: bool, weather: bool)

  /** The `/api/export` body. */
  datatype ExportRequest = ExportRequest(
    format: Option<string>,
    dateRange: Option<DateRange>,
    dataTypes: Option<DataTypes>,
    locations: Option<seq<string>>,
    includeMetadata: bool)

  datatype Pollutants = Pollutants(pm25: real, pm10: real, co: real, o3: real, no2: real, so2: real)
  datatype Weather = Weather(temperature: Option<real>, humidity: Option<real>, windSpeed: Option<real>)
  datatype Metadata = Metadata(source: string, id: string)

  /** One exported record: timestamp and location always, each group only
      when asked for. */
  datatype ExportRecord = ExportRecord(
    timestamp: int,
    location: string,
    aqi: Option<int>,
    pollutants: Option<Pollutants>,
    weather: Option<Weather>,
    metadata: Option<Metadata>)

  datatype ExportResponse =
    | Exported(data: seq<ExportRecord>, totalRecords: nat, format: string)
    | MissingParameters
    | NothingToExport
    | ExportFailed

  /** A record carries exactly the groups asked for, each copied from the
      reading it was made from. */
  ghost predicate Shaped(rec: ExportRecord, reading: StoredReading, types: DataTypes, meta: bool)
  {
    && rec.timestamp == reading.timestamp
    && rec.location == reading.row.location
    && (rec.aqi.Some? <==> types.aqi)
    && (rec.aqi.Some? ==> rec.aqi.value == reading.row.aqi)
    && (rec.pollutants.Some? <==> types.pollutants)
    && (rec.pollutants.Some? ==>
          var p := rec.pollutants.value;
          && p.pm25 == reading.row.pm25 && p.pm10 == reading.row.pm10 && p.co == reading.row.co
          && p.o3 == reading.row.o3 && p.no2 == reading.row.no2 && p.so2 == reading.row.so2)
    && (rec.weather.Some? <==> types.weather)
    && (rec.weather.Some? ==>
          var w := rec.weather.value;
          && w.temperature == reading.row.temperature && w.humidity == reading.row.humidity
          && w.windSpeed == reading.row.windSpeed)
    && (rec.metadata.Some? <==> meta)
    && (rec.metadata.Some? ==> rec.metadata.value == Metadata(reading.row.source, reading.id))
  }

  /** The record built for one reading (lines 601-628). */
  function Record(reading: StoredReading, types: DataTypes, meta: bool): (rec: ExportRecord)
    ensures Shaped(rec, reading, types, meta)
  {
    var row := reading.row;
    ExportRecord(
      reading.timestamp,
      row.location,
      if types.aqi then Some(row.aqi) else None,
      if types.pollutants then Some(Pollutants(row.pm25, row.pm10, row.co, row.o3, row.no2, row.so2)) else None,
      if types.weather then Some(Weather(row.temperature, row.humidity, row.windSpeed)) else None,
      if meta then Some(Metadata(row.source, reading.id)) else None)
  }

  /** Some location's query throws. */
  ghost predicate QueryFails(locations: seq<string>, range: DateRange, query: RangeQuery)
  {
    exists i :: 0 <= i < |locations| && query(locations[i], range.from, range.to).Err?
  }

  /** Whether any group is asked for (line 597). */
  predicate AnyType(types: DataTypes)
  {
    types.aqi || types.pollutants || types.weather
  }

  /** The readings storage returns for one location, none when it throws. */
  ghost function Found(location: string, range: DateRange, query: RangeQuery): seq<StoredReading>
  {
    var q := query(location, range.from, range.to);
    if q.Ok? then q.value else []
  }

  /** The number of readings storage returns for a list of locations. */
  ghost function ReadingCount(locations: seq<string>, range: DateRange, query: RangeQuery): nat
    decreases |locations|
  {
    if |locations| == 0 then 0
    else |Found(locations[0], range, query)| + ReadingCount(locations[1..], range, query)
  }

  /** The readings storage returns for a list of locations, location by
      location, each location's readings in storage order. */
  ghost function AllFound(locations: seq<string>, range: DateRange, query: RangeQuery): (found: seq<StoredReading>)
    ensures |found| == ReadingCount(locations, range, query)
    decreases |locations|
  {
    if |locations| == 0 then []
    else Found(locations[0], range, query) + AllFound(locations[1..], range, query)
  }

  /** A record shaped from one of the readings of one of the locations. */
  ghost predicate MadeFrom(rec: ExportRecord, locations: seq<string>, range: DateRange, types: DataTypes,
                           meta: bool, query: RangeQuery)
  {
    exists i, j :: 0 <= i < |locations| && 0 <= j < |Found(locations[i], range, query)|
                   && Shaped(rec, Found(locations[i], range, query)[j], types, meta)
  }

  /** The loop of lines 596-633: for each location in order, one record per
      reading in the date range. The first storage failure aborts the
      export; when no group is asked for, storage is not consulted. */
  function ExportRecords(locations: seq<string>, range: DateRange, types: DataTypes, meta: bool,
                         query: RangeQuery): (r: Result<seq<ExportRecord>, string>)
    requires AnyType(types)
    ensures r.Err? <==> QueryFails(locations, range, query)
    ensures r.Ok? ==> |r.value| == ReadingCount(locations, range, query)
    ensures r.Ok? ==> forall k :: 0 <= k < |r.value| ==> MadeFrom(r.value[k], locations, range, types, meta, query)
    ensures r.Ok? ==> ShapedEach(r.value, AllFound(locations, range, query), types, meta)
    decreases |locations|
  {
    if |locations| == 0 then Ok([])
    else
      match query(locations[0], range.from, range.to)
      case Err(e) => Err(e)
      case Ok(readings) =>
        var rest := ExportRecords(locations[1..], range, types, meta, query);
        assert forall i :: 1 <= i < |locations| ==> locations[i] == locations[1..][i - 1];
        if rest.Err? then
          Err(rest.error)
        else
          var mine := seq(|readings|, j requires 0 <= j < |readings| => Record(readings[j], types, meta));
          ExportHead(locations, range, types, meta, query, mine, rest.value);
          ShapedConcat(mine, rest.value, readings, AllFound(locations[1..], range, query), types, meta);
          Ok(mine + rest.value)
  }

  /** Record `k` is shaped from reading `k`, one record per reading. */
  ghost predicate ShapedEach(records: seq<ExportRecord>, readings: seq<StoredReading>, types: DataTypes, meta: bool)
  {
    |records| == |readings| && forall k :: 0 <= k < |records| ==> Shaped(records[k], readings[k], types, meta)
  }

  /** Records shaped one per reading, concatenated, are shaped one per
      reading of the concatenation. */
  lemma ShapedConcat(a: seq<ExportRecord>, b: seq<ExportRecord>, ra: seq<StoredReading>, rb: seq<StoredReading>,
                     types: DataTypes, meta: bool)
    requires ShapedEach(a, ra, types, meta)
    requires ShapedEach(b, rb, types, meta)
    ensures ShapedEach(a + b, ra + rb, types, meta)
  {
    forall k | 0 <= k < |a + b|
      ensures Shaped((a + b)[k], (ra + rb)[k], types, meta)
    {
      if k < |a| {
        assert (a + b)[k] == a[k] && (ra + rb)[k] == ra[k];
      } else {
        assert (a + b)[k] == b[k - |a|] && (ra + rb)[k] == rb[k - |a|];
      }
    }
  }

  /** The step of `ExportRecords`: the records of the first location and of
      the rest are all shaped from some location's reading. */
  lemma ExportHead(locations: seq<string>, range: DateRange, types: DataTypes, meta: bool, query: RangeQuery,
                   mine: seq<ExportRecord>, rest: seq<ExportRecord>)
    requires |locations| > 0
    requires var found := Found(locations[0], range, query);
      |mine| == |found| && forall j :: 0 <= j < |mine| ==> Shaped(mine[j], found[j], types, meta)
    requires forall k :: 0 <= k < |rest| ==> MadeFrom(rest[k], locations[1..], range, types, meta, query)
    ensures forall k :: 0 <= k < |mine + rest| ==> MadeFrom((mine + rest)[k], locations, range, types, meta, query)
  {
    forall k | 0 <= k < |mine + rest|
      ensures MadeFrom((mine + rest)[k], locations, range, types, meta, query)
    {
      if k < |mine| {
        assert Shaped((mine + rest)[k], Found(locations[0], range, query)[k], types, meta);
      } else {
        var tail := locations[1..];
        var i, j :| 0 <= i < |tail| && 0 <= j < |Found(tail[i], range, query)|
                    && Shaped(rest[k - |mine|], Found(tail[i], range, query)[j], types, meta);
        assert tail[i] == locations[i + 1];
        assert (mine + rest)[k] == rest[k - |mine|];
      }
    }
  }

  /** `/api/export` (lines 577-654). A missing or empty format, or a missing
      date range or type selection, is a 400. Locations default to
      `['Bengaluru Central']`. No records at all, also when no group is
      asked for or the location list is empty, is a 503; a storage failure
      is a 500; otherwise every record is returned with its count and the
      requested format echoed. */
  function Export(req: ExportRequest, query: RangeQuery): (r: ExportResponse)
    ensures r.MissingParameters? <==> !Truthy(req.format) || req.dateRange.None? || req.dataTypes.None?
    ensures !r.MissingParameters? ==>
      var locations := ExportLocations(req);
      var range := req.dateRange.value;
      var types := req.dataTypes.value;
      && (r.ExportFailed? <==> AnyType(types) && QueryFails(locations, range, query))
      && (r.NothingToExport? <==>
            !AnyType(types) || (!QueryFails(locations, range, query) && ReadingCount(locations, range, query) == 0))
      && (r.Exported? ==> ShapedEach(r.data, AllFound(locations, range, query), types, req.includeMetadata))
      && (r.Exported? ==> |r.data| == ReadingCount(locations, range, query)
                          && forall k :: 0 <= k < |r.data| ==>
                               MadeFrom(r.data[k], locations, range, types, req.includeMetadata, query))
    ensures r.Exported? ==> r.totalRecords == |r.data| > 0 && r.format == req.format.value
    ensures r.Exported? ==> AnyType(req.dataTypes.value)
    ensures r.Exported? ==> forall k :: 0 <= k < |r.data| ==>
      && (r.data[k].aqi.Some? <==> req.dataTypes.value.aqi)
      && (r.data[k].pollutants.Some? <==> req.dataTypes.value.pollutants)
      && (r.data[k].weather.Some? <==> req.dataTypes.value.weather)
      && (r.data[k].metadata.Some? <==> req.includeMetadata)
    ensures req.dataTypes.Some? && !AnyType(req.dataTypes.value) && !r.MissingParameters? ==> r.NothingToExport?
    ensures req.locations == Some([]) && !r.MissingParameters? ==> r.NothingToExport?
  {
    if !Truthy(req.format) || req.dateRange.None? || req.dataTypes.None? then MissingParameters
    else
      var types := req.dataTypes.value;
      var locations := ExportLocations(req);
      if !AnyType(types) then NothingToExport
      else
        match ExportRecords(locations, req.dateRange.value, types, req.includeMetadata, query)
        case Err(_) => ExportFailed
        case Ok(data) =>
          if |data| == 0 then NothingToExport
          else Exported(data, |data|, req.format.value)
  }

  /** The locations exported: those requested, or `['Bengaluru Central']`
      when none are given (line 596). */
  function ExportLocations(req: ExportRequest): (locations: seq<string>)
    ensures req.locations.Some? ==> locations == req.locations.value
    ensures req.locations.None? ==> locations == ["Bengaluru Central"]
  {
    if req.locations.Some? then req.locations.value else ["Bengaluru Central"]
  }

  // ---------------------------------------------------------------------
  // Chat context

  /** What `getCurrentAQIContext` returns: the latest reading's values, with
      0 for any missing weather value. */
  datatype AqiContext = AqiContext(
    currentAqi: int,
    location: string,
    pollutants: Pollutants,
    temperature: real,
    humidity: real,
    windSpeed: real,
    timestamp: int)

  /** `getCurrentAQIContext` (lines 15-46). Only an absent location means
      `"Bengaluru"` (a default parameter, not `||`). No reading, or a storage
      failure, means no context. */
  function CurrentContext(location: Option<string>, latest: Latest): (r: Option<AqiContext>)
    ensures var loc := if location.Some? then location.value else "Bengaluru";
      && (r.None? <==> latest(loc).Err? || latest(loc) == Ok(None))
      && (r.Some? ==>
            var reading := latest(loc).value.value;
            && r.value.currentAqi == reading.row.aqi
            && r.value.location == reading.row.location
            && r.value.pollutants == Pollutants(reading.row.pm25, reading.row.pm10, reading.row.co,
                                                reading.row.o3, reading.row.no2, reading.row.so2)
            && r.value.timestamp == reading.timestamp
            && r.value.temperature == OrZero(reading.row.temperature)
            && r.value.humidity == OrZero(reading.row.humidity)
            && r.value.windSpeed == OrZero(reading.row.windSpeed))
    ensures location == Some("") ==> (r.None? <==> latest("").Err? || latest("") == Ok(None))
  {
    var loc := if location.Some? then location.value else "Bengaluru";
    match latest(loc)
    case Err(_) => None
    case Ok(None) => None
    case Ok(Some(reading)) =>
      var row := reading.row;
      Some(AqiContext(row.aqi, row.location, Pollutants(row.pm25, row.pm10, row.co, row.o3, row.no2, row.so2),
                      OrZero(row.temperature), OrZero(row.humidity), OrZero(row.windSpeed), reading.timestamp))
  }
}

=== FILE: wrappers.dfy ===
/** Failure-carrying datatypes used throughout the model: JavaScript's
    `null`/`undefined` become `None`, a thrown exception becomes `Err` or
    `Fail`. */
module Wrappers {

  datatype Option<+T> = None | Some(value: T)

  /** The outcome of a call that either returns a value or throws. */
  datatype Result<+T, +E> = Ok(value: T) | Err(error: E)

  /** The outcome of a call that returns nothing or throws. */
  datatype Outcome<+E> = Pass | Fail(error: E)
}
